=== FILE: README.md ===
# Risk aggregation and contract monitoring: a Dafny model

This project models the core of a Telegram bot that watches new contract
deployments on Ethereum and Base and rates tokens with external risk
detectors:

- **checker.py**: the risk aggregation protocol `api` and its three
  detector adapters.
  - `check_hacker` reads a scraped hackers.tools report page.
  - `check_honeypot_is` normalises the honeypot.is simulation answer.
  - `check_token_sniffer` returns the TokenSniffer score payload.
  - `api` is a bounded retry loop. It runs the hackers.tools check, then the honeypot.is check. Each check has its own early veto. TokenSniffer is called at most once. That happens when both checks returned data in the same attempt, or when `max_retries` is negative: then the loop is skipped, TokenSniffer is called, and `api` raises on the unbound `hacker_data`.
- **main.py**: the per-contract record machinery.
  - the explorer's source-code answer decides whether a contract is verified;
  - the ERC20 probe;
  - the record that `analyze_contract` inserts;
  - one pass of the unverified-contract sweep;
  - the block cursor of `monitor_blocks`;
  - the `start_monitoring` toggle.

Every answer from the outside world is an input:

- HTTP responses, scraped pages, RPC receipts, explorer answers and Telegram delivery.
- Whether a MongoDB write (`insert_one`, `update_one`) goes through. A write that raises ends the task; the store is otherwise updated as the write says.
- A detector is an oracle indexed by the attempt number.

`api` is a pure function. It returns an outcome together with the trace of calls it made (`Aggregator.Call`). This lets the vetoes, the retry bound and "TokenSniffer is called only after both checks returned data, or when the budget is negative" be stated as properties of the trace. Python exceptions are explicit:

- An adapter that catches its exception returns `None`.
- A function without `try` returns a `Result` failure.

Modules, leaf first:

- `Wrappers` (`wrappers.dfy`): `Option` and `Result`.
- `Seqs` (`seqs.dfy`): the first element of a sequence that passes a test.
- `PyText` (`pytext.dfy`): Python's `in`, `lower()` and `strip()`.
- `Json` (`json.dfy`): decoded JSON values with Python truthiness, `.get` and subscripting.
- `Upstream` (`upstream.dfy`): the chain identifiers in the detectors' URLs, and an HTTP response.
- `Hacker` (`hacker.dfy`), `HoneypotIs` (`honeypot.dfy`), `TokenSniffer` (`sniffer.dfy`): the three detector adapters.
- `Aggregator` (`aggregator.dfy`): `api`.
- `ApiProperties` (`api_properties.dfy`): what the protocol guarantees.
- `Contracts` (`contracts.dfy`): records, `fetch_source_code`, `check_erc20`, `analyze_contract`.
- `Sweep` (`sweep.dfy`): `retry_unverified_contracts`.
- `SweepExample` (`sweep_example.dfy`): a concrete pass over a store holding two records for one address.
- `Watcher` (`watcher.dfy`): `monitor_blocks` and `start_monitoring`.

What the code does, and does not do, in places a reader might expect otherwise:

- A missing `isHoneypot` is stored as `None`, which is falsy, so it does **not** trigger veto B.
- `api` has no source-code gate, no pending/rate-limit poller, no concurrency gate and no score/similarity filter.
- The two detectors run one after the other, not concurrently.
- Records are inserted without looking up the address, so two records can share an address.
- The sweep has no retry counter. `RETRY_LIMIT` is declared but not used.
- The sweep does not invoke the aggregator.
- The watcher sleeps one second after a failed fetch as after a successful one. There is no longer back-off.
- The watcher looks up the chain head before its `try`. If that lookup raises, the task dies while `monitoring[chain]` stays set, and `start_monitoring` then only answers "already active": the chain gets no watcher until the process restarts.

## Model

| member | source | states |
|---|---|---|
| `PyText.ContainsAt` | checker.py:78 | Python's `sub in s` holds exactly when `sub` occurs at some offset of `s` |
| `PyText.Lower` | checker.py:71 | lower-casing keeps the length and maps every character on its own (ASCII letters) |
| `PyText.Strip` | checker.py:85 | the stripped text has no whitespace at either end and is the part of the input with only whitespace around it |
| `Upstream.ChainSlug` | checker.py:58 | "eth" maps to "ethereum"; every other chain maps to "base" |
| `Upstream.ChainId` | checker.py:127 | "eth" maps to chain id 1; every other chain maps to 8453 |
| `Upstream.ChainNamesAgree` | checker.py:58 | the scraper and the two JSON services always address the same chain |
| `Seqs.FindFirst` | checker.py:77-80 | BeautifulSoup's `find`: the result is the first element satisfying the test; None means no element satisfies it |
| `Hacker.SafeIffSafeText` | checker.py:67-68 | `is_safe` holds exactly when some paragraph's string is "Looks safe for now" |
| `Hacker.LiquidityFromFirstLabel` | checker.py:76-87 | liquidity is the stripped span text of the FIRST paragraph containing "Liquidity:" or "Liqudity:", or "N/A" when that paragraph has no span |
| `Hacker.NoLabelNoLiquidity` | checker.py:86-87 | with no labelled paragraph the liquidity is "N/A" |
| `Hacker.RecordKeepsLast` | checker.py:91-110 | the overwrite loop fails exactly when a div has no span; otherwise each key holds the last text filed under it, or its earlier value |
| `Hacker.LastForCons` | checker.py:93-100 | the last action filed under a key is in the rest of the list if it is there at all, and otherwise is the first div |
| `Hacker.CheckHacker` | checker.py:57-123 | a record comes back exactly when the page was fetched and every action div has a span; `is_safe` is the safe-text test |
| `Hacker.NegativeOverridesPositive` | checker.py:91-110 | a red (refused) action overrides a green one under the same key; a key is present only when some div was filed under it |
| `HoneypotIs.CheckHoneypotIs` | checker.py:126-197 | a record comes back exactly on status 200 with a JSON body whose consumed sections are objects or absent; the stored verdict is `honeypotResult.isHoneypot`, or null when absent |
| `HoneypotIs.MissingVerdictNeverFlags` | checker.py:141 | a missing `isHoneypot` or `honeypotResult` leaves the verdict null and never flags a honeypot |
| `HoneypotIs.MissingSectionsDefault` | checker.py:137-186 | a whole missing section gives all its fields their defaults: "N/A", and false for the contract-code flags |
| `HoneypotIs.FieldsReadOrDefault` | checker.py:137-186 | every field of the record is the upstream value when the field is present, and its default when the field or its section is missing ("N/A"; false for the contract-code flags; null for the verdict) |
| `HoneypotIs.MissingFieldsDefault` | checker.py:148-185 | a field missing from a section that is present takes its default too, and a present field is copied unchanged |
| `HoneypotIs.EmptyAnswerNormalises` | checker.py:133-189 | an empty 200 answer gives the all-defaults record |
| `TokenSniffer.CheckTokenSniffer` | checker.py:199-213 | the payload is returned exactly on status 200 with a non-null JSON body; otherwise the result is None |
| `Aggregator.Attempts` | checker.py:9-37 | a break or veto happens at an attempt below `max_retries`; the guard fails only with `retries == max(max_retries, start)`; no TokenSniffer call happens inside the loop; every call's attempt is below the budget |
| `Aggregator.Api` | checker.py:6-54 | TokenSniffer is called exactly when a report is produced or the loop was skipped; a report carries the TokenSniffer answer; `api` raises exactly when `max_retries` is negative |
| `Aggregator.RunApi` | checker.py:6-54 | the imperative loop, with its early returns and `break`, computes exactly the run `Api` describes |
| `ApiProperties.QuietStep` | checker.py:11-37 | an attempt that neither vetoes nor gets data from both detectors adds its hacker, honeypot and sleep events and hands over to the next attempt |
| `ApiProperties.SkipQuiet` | checker.py:29-37 | attempts that settle nothing only add their hacker, honeypot and sleep events |
| `ApiProperties.FirstDecisiveDecides` | checker.py:11-54 | the first settling attempt decides the run. Veto A ends it before honeypot.is is asked. Veto B ends it before TokenSniffer is asked. Data from both gives one TokenSniffer call and a report of that attempt's answers |
| `ApiProperties.QuietRunExhausts` | checker.py:35-42 | if no attempt settles, the run makes exactly `max_retries` rounds, never calls TokenSniffer, and returns None |
| `ApiProperties.ZeroBudgetCallsNothing` | checker.py:9-42 | with `max_retries = 0` no detector is called and the result is None |
| `ApiProperties.NegativeBudgetRaises` | checker.py:40-51 | with a negative budget TokenSniffer is called and then `api` raises on the unbound `hacker_data` |
| `ApiProperties.FirstDecisiveOrQuiet` | checker.py:9-32 | either some attempt below the budget is the first to settle, or none settles |
| `ApiProperties.FirstDecisiveUnique` | checker.py:9-32 | at most one attempt is the first to settle |
| `ApiProperties.ApiCharacterised` | checker.py:11-42 | each outcome happens exactly when the answers say so. Veto A needs all three of its conditions in the first settling attempt. Veto B applies only when veto A did not fire. Exhaustion happens exactly when nothing settles |
| `ApiProperties.AttemptsOrdered` | checker.py:11-37 | inside the loop, every honeypot.is call directly follows the hackers.tools call of the same attempt, and attempt numbers only increase |
| `ApiProperties.HackerBeforeHoneypot` | checker.py:11-45 | the hacker-before-honeypot order holds of every `api` trace, and a TokenSniffer call is always the last call |
| `ApiProperties.MissingVerdictNeverVetoes` | checker.py:24-27 | over raw answers, if honeypot.is never states a verdict then veto B never fires |
| `Contracts.FetchSourceCode` | main.py:128-137 | returns `result[0].SourceCode` when status is "1" and the list is non-empty; returns None when status is not "1" or result is empty; it raises exactly when there is no answer, no status, or status "1" with no result or with a truthy result lacking a first `SourceCode` entry |
| `Contracts.CheckErc20` | main.py:112-125 | `(True, details)` exactly when the ABI loads and name, symbol and decimals all answer; `(False, None)` otherwise |
| `Contracts.AnalyzeContract` | main.py:80-110 | the store only grows, by at most one record appended at the end; at most one message is sent; a record is inserted only for a contract address that is an ERC20 token, and exactly when a message was sent and the task did not raise |
| `Contracts.FailedInsertStillNotifies` | main.py:103-110 | the message is sent before `insert_one`: when the insert raises, the message is out but the store is unchanged |
| `Contracts.PersistedRecordShape` | main.py:84-110 | a record is inserted exactly when every step succeeds, the insert included. It has the input's chain, deployer and timestamp, the ERC20 details and no TokenSniffer data. It is verified, with its source, exactly when the source is truthy. The one message sent names the chain, address and details, and says VERIFIED exactly when the source is truthy |
| `Contracts.NonTokenNotPersisted` | main.py:84-99 | a non-token, or a receipt without a contract address, leaves the store unchanged and sends nothing |
| `Contracts.NoDeduplication` | main.py:110 | analysing the same deployment twice stores the address twice |
| `Sweep.FirstWith` | main.py:50-51 | `update_one`'s filter matches the first record with the address |
| `Sweep.UpdateOne` | main.py:50-53 | the first record with the address becomes verified with the new source and every other record is unchanged; with no such record the store is unchanged; no immutable field changes |
| `Sweep.Apply` | main.py:50-53 | in place, record `i` becomes verified with the source and every other record is unchanged; by address, records with another address are unchanged; either way every record stays stable |
| `Sweep.SweepFrom` | main.py:44-54 | the loop, which stops at a raising fetch or write or an undelivered message, keeps the store's size and every record stable |
| `Sweep.SweepPass` | main.py:44-54 | a pass never un-verifies a record |
| `Sweep.NoticesOfPass` | main.py:45-54 | whichever record the write lands on, a pass from any position that completes sends exactly one "has been verified" message per record the explorer now verifies, in store order |
| `Sweep.PassNotices` | main.py:44-54 | a completed pass sends one "has been verified" message for each record the explorer now verifies, in store order, and no other |
| `Sweep.SameRecordKeeps` | main.py:45-53 | when each record is updated in place, verified records and records already passed are untouched |
| `Sweep.SameRecordCompletes` | main.py:45-53 | when each record is updated in place, a completed pass leaves each record as the explorer's answer dictates |
| `Sweep.SameRecordPass` | main.py:44-53 | with in-place updates, verified records stay exactly as they were, and a completed pass verifies exactly the records whose source is now available |
| `Sweep.AgreeFrom` | main.py:50-53 | with unique addresses, the update by address and the update in place agree from any position |
| `Sweep.UniqueAddressesAgree` | main.py:50-53 | with unique addresses, the sweep as written updates the record in hand |
| `SweepExample.DuplicateAddressMisroutesUpdate` | main.py:50-53 | with two records for one address, the as-written pass overwrites the verified one and leaves the unverified one unverified |
| `Watcher.StartCursor` | main.py:63 | the cursor starts 500 blocks behind the head |
| `Watcher.Deployments` | main.py:68-71 | as many analyses are spawned as the block has contract creations |
| `Watcher.DeploymentsMembers` | main.py:68-71 | every transaction whose `to` is None gets an analysis, and every analysis comes from such a transaction |
| `Watcher.DeploymentsAppend` | main.py:68-71 | the analyses come out in transaction order: splitting a block's transactions splits its deployments |
| `Watcher.Scan` | main.py:66-74 | a fetched block moves the cursor by exactly one and spawns its deployments; a failed fetch changes nothing |
| `Watcher.MonitorBlocks` | main.py:62-77 | the task dies at once, having scanned nothing, exactly when the head lookup (before the `try`) raises; otherwise the first block scanned is 500 behind the head, the loop runs while the flag is set, and it spawns the deployments of the blocks from there to the final cursor, in order |
| `Watcher.WatchLoop` | main.py:64-77 | the cursor never goes back and moves at most once per turn |
| `Watcher.EveryBlockOnce` | main.py:63-77 | the loop runs exactly while the flag is set. The cursor advances once per successful fetch. Every block passed is scanned exactly once, in order |
| `Watcher.StartMonitoring` | main.py:140-147 | a watcher is started exactly when the chain was not active; afterwards the chain is active; other chains are untouched |
| `Watcher.InitialIsValid` | main.py:37 | at start-up no chain is active and no watcher runs |
| `Watcher.StartKeepsOneWatcher` | main.py:140-144 | starting keeps exactly one watcher per active chain |
| `Watcher.StartIdempotent` | main.py:140-147 | a second start changes no state and starts no watcher |

## Left out

- HTTP requests (aiohttp, requests), BeautifulSoup parsing of real HTML, web3 RPC, MongoDB and Telegram are external collaborators. Their answers, and whether a write or a message goes through, are inputs; JSON shapes beyond the consumed fields are not modelled.
- `asyncio.sleep` is a trace event with no effect. `create_task` scheduling and the event loop are not modelled: spawned analyses are returned as a list.
- `print` logging, the URL and link strings, message texts, and the environment/dotenv configuration are not modelled. Messages are modelled only by their kind and fields.
- The Telegram handlers `start_monitor_eth`, `start_monitor_base` and `start` only call `start_monitoring` and reply, so they are not modelled separately. The bot's `main` is not modelled either; it leaves the sweep commented out.
- PyText.Lower: lowers ASCII letters only, not all of Unicode. For the phrase "pair on" no other character lowers into an occurrence.
- A MongoDB write either goes through whole or raises before changing anything; partial writes, `_id` fields and indexes are not modelled.
- JSON numbers are integers; floating-point values are not modelled.
- Sweep.SweepPass: the MongoDB cursor is modelled as a snapshot taken when the pass starts. Documents updated while the cursor is open may in reality be seen or skipped differently.
- Watcher.WatchLoop: the flag is an input per turn, because no code in the source clears it.
- Watcher.Scan: a fetched block's transaction loop is taken not to raise. If it raised after some `create_task` calls, the cursor would stay put and those analyses would be spawned again on the next turn; `Scan` is all-or-nothing.
- A cursor below zero (head under 500 blocks) is left to the block oracle, which decides whether such a fetch fails.

## Findings

| source | as written | input that shows it | evidently intended | confidence | as-written member | corrected member |
|---|---|---|---|---|---|---|
| main.py:50-53 | the sweep updates `{"address": a}` with `update_one`, which changes the first record with that address, not the record being processed | two records for address A (which `analyze_contract` creates, since it never deduplicates): the first verified, the second not, and the explorer now returns source for A | the unverified record in hand becomes verified and the already verified one is left alone | medium, not executed | `SweepExample.DuplicateAddressMisroutesUpdate` | `Sweep.SameRecordPass` |

=== FILE: aggregator.dfy ===
/** The risk aggregation protocol (`api`): a bounded retry loop that runs
    the hackers.tools check, then the honeypot.is check, each with its own
    early veto. TokenSniffer is called at most once: when both checks
    returned data in the same attempt, or when `max_retries` is negative,
    in which case the loop is skipped, TokenSniffer is called and `api`
    then raises on the unbound `hacker_data`. The detectors are oracles
    indexed by attempt number; sleeping is a trace event and has no other
    effect. */
module Aggregator {
  import opened Wrappers
  import opened Json
  import opened Upstream
  import opened Hacker
  import opened HoneypotIs

  /** What `api` asked of the outside world, in order. */
  datatype Call =
    | HackerCall(attempt: nat, slug: string)
    | HoneypotCall(attempt: nat, chainId: int)
    | Sleep(seconds: int)
    | SnifferCall(chainId: int)

  /** The combined result: exactly the keys hacker, honeypot, tokensniffer. */
  datatype Report = Report(hacker: HackerData, honeypot: HoneypotData, tokensniffer: Option<Value>)

  /** Why `api` ended. All but `Reported` return Python's `None`, except
      `Unbound`: `api` raises because `hacker_data` was never assigned. */
  datatype Outcome =
    | Reported(report: Report)
    | VetoedByHacker(attempt: nat)
    | VetoedByHoneypot(attempt: nat)
    | Exhausted
    | Unbound

  datatype Run = Run(outcome: Outcome, trace: seq<Call>) {
    /** The value `api` returns when it does not raise. */
    function Returned(): Option<Report> {
      if outcome.Reported? then Some(outcome.report) else None
    }
  }

  /** How the `while` loop was left. */
  datatype LoopExit =
    | HackerVeto(attempt: nat)
    | HoneypotVeto(attempt: nat)
    | Break(retries: nat, hacker: HackerData, honeypot: HoneypotData)
    | GuardFailed(retries: nat)

  /** Veto A: a strict AND of data present, not safe, known liquidity. */
  predicate HackerVetoes(h: Option<HackerData>) {
    h.Some? && !h.value.isSafe && h.value.liquidity != Hacker.NA
  }

  /** Veto B: data present and its verdict truthy. */
  predicate HoneypotVetoes(y: Option<HoneypotData>) {
    y.Some? && FlagsHoneypot(y.value)
  }

  /** An attempt that ends the loop. */
  predicate Decisive(h: Option<HackerData>, y: Option<HoneypotData>) {
    HackerVetoes(h) || HoneypotVetoes(y) || (h.Some? && y.Some?)
  }

  function CallAttempt(c: Call): int {
    match c
    case HackerCall(a, _) => a
    case HoneypotCall(a, _) => a
    case _ => -1
  }

  /** The loop from the attempt with `retries == k` on. */
  function Attempts(chain: string, hacker: nat -> Option<HackerData>, honey: nat -> Option<HoneypotData>,
                    interval: int, maxRetries: int, k: nat): (r: (LoopExit, seq<Call>))
    ensures r.0.Break? ==> k <= r.0.retries < maxRetries
    ensures r.0.GuardFailed? ==> r.0.retries == if k < maxRetries then maxRetries else k
    ensures r.0.HackerVeto? ==> k <= r.0.attempt < maxRetries
    ensures r.0.HoneypotVeto? ==> k <= r.0.attempt < maxRetries
    ensures forall i :: 0 <= i < |r.1| ==> !r.1[i].SnifferCall?
    ensures forall i :: 0 <= i < |r.1| && !r.1[i].Sleep? ==> k <= CallAttempt(r.1[i]) < maxRetries
    decreases maxRetries - k
  {
    if k >= maxRetries then (GuardFailed(k), [])
    else
      var h := hacker(k);
      var asked := [HackerCall(k, ChainSlug(chain))];
      if HackerVetoes(h) then (HackerVeto(k), asked)
      else
        var y := honey(k);
        var both := asked + [HoneypotCall(k, ChainId(chain))];
        if HoneypotVetoes(y) then (HoneypotVeto(k), both)
        else if h.Some? && y.Some? then (Break(k, h.value, y.value), both)
        else
          var rest := Attempts(chain, hacker, honey, interval, maxRetries, k + 1);
          (rest.0, both + [Sleep(interval)] + rest.1)
  }

  /** `api(chain, address, key, retry_interval, max_retries)`, with the
      TokenSniffer answer `sniffer` it would get if it asked. */
  function Api(chain: string, hacker: nat -> Option<HackerData>, honey: nat -> Option<HoneypotData>,
               sniffer: Option<Value>, interval: int, maxRetries: int): (run: Run)
    ensures run.outcome.Reported? || run.outcome.Unbound? <==>
      exists i :: 0 <= i < |run.trace| && run.trace[i].SnifferCall?
    ensures run.outcome.Reported? ==> run.outcome.report.tokensniffer == sniffer
    ensures run.outcome.Unbound? <==> maxRetries < 0
  {
    var (exit, trace) := Attempts(chain, hacker, honey, interval, maxRetries, 0);
    match exit
    case HackerVeto(a) => Run(VetoedByHacker(a), trace)
    case HoneypotVeto(a) => Run(VetoedByHoneypot(a), trace)
    case Break(retries, h, y) =>
      if retries == maxRetries then Run(Exhausted, trace)
      else
        var called := trace + [SnifferCall(ChainId(chain))];
        assert called[|trace|].SnifferCall?;
        Run(Reported(Report(h, y, sniffer)), called)
    case GuardFailed(retries) =>
      if retries == maxRetries then Run(Exhausted, trace)
      else
        var called := trace + [SnifferCall(ChainId(chain))];
        assert called[|trace|].SnifferCall?;
        Run(Unbound, called)
  }

  /** The `while` loop as written, with early returns and `break`; it
      computes exactly what `Api` describes. */
  method RunApi(chain: string, hacker: nat -> Option<HackerData>, honey: nat -> Option<HoneypotData>,
                sniffer: Option<Value>, interval: int, maxRetries: int) returns (run: Run)
    ensures run == Api(chain, hacker, honey, sniffer, interval, maxRetries)
  {
    ghost var whole := Attempts(chain, hacker, honey, interval, maxRetries, 0);
    var retries: nat := 0;
    var trace: seq<Call> := [];
    var broke := false;
    var hackerData: HackerData;
    var honeyData: HoneypotData;
    while retries < maxRetries
      invariant whole.1 == trace + Attempts(chain, hacker, honey, interval, maxRetries, retries).1
      invariant whole.0 == Attempts(chain, hacker, honey, interval, maxRetries, retries).0
      decreases maxRetries - retries
    {
      ghost var here := Attempts(chain, hacker, honey, interval, maxRetries, retries);
      ghost var before := trace;
      var h := hacker(retries);
      trace := trace + [HackerCall(retries, ChainSlug(chain))];
      if HackerVetoes(h) {
        assert here == (HackerVeto(retries), [HackerCall(retries, ChainSlug(chain))]);
        assert whole == (HackerVeto(retries), trace);
        return Run(VetoedByHacker(retries), trace);
      }
      var y := honey(retries);
      trace := trace + [HoneypotCall(retries, ChainId(chain))];
      ghost var both := [HackerCall(retries, ChainSlug(chain))] + [HoneypotCall(retries, ChainId(chain))];
      assert trace == before + both;
      if HoneypotVetoes(y) {
        assert here == (HoneypotVeto(retries), both);
        assert whole == (HoneypotVeto(retries), trace);
        return Run(VetoedByHoneypot(retries), trace);
      }
      if h.Some? && y.Some? {
        assert here == (Break(retries, h.value, y.value), both);
        assert whole == (Break(retries, h.value, y.value), trace);
        broke := true;
        hackerData, honeyData := h.value, y.value;
        break;
      }
      ghost var rest := Attempts(chain, hacker, honey, interval, maxRetries, retries + 1);
      assert here == (rest.0, both + [Sleep(interval)] + rest.1);
      assert whole.1 == trace + [Sleep(interval)] + rest.1;
      retries := retries + 1;
      trace := trace + [Sleep(interval)];
    }
    if !broke {
      assert Attempts(chain, hacker, honey, interval, maxRetries, retries) == (GuardFailed(retries), []);
      assert trace + [] == trace;
      assert whole == (GuardFailed(retries), trace);
    } else {
      assert whole == (Break(retries, hackerData, honeyData), trace);
    }
    if retries == maxRetries {
      return Run(Exhausted, trace);
    }
    trace := trace + [SnifferCall(ChainId(chain))];
    if !broke {
      return Run(Unbound, trace);
    }
    return Run(Reported(Report(hackerData, honeyData, sniffer)), trace);
  }
}

=== FILE: api_properties.dfy ===
/** What the retry/veto protocol of `api` guarantees, stated over every
    sequence of detector answers. */
module ApiProperties {
  import opened Wrappers
  import opened Json
  import opened Upstream
  import opened Hacker
  import opened HoneypotIs
  import opened TokenSniffer
  import opened Aggregator

  /** The three events of an attempt that settled nothing. */
  function Round(chain: string, interval: int, j: nat): seq<Call> {
    [HackerCall(j, ChainSlug(chain)), HoneypotCall(j, ChainId(chain)), Sleep(interval)]
  }

  /** The events of the attempts `from .. to - 1`, none of which settled. */
  function Rounds(chain: string, interval: int, from: nat, to: nat): seq<Call>
    decreases to - from
  {
    if from >= to then [] else Round(chain, interval, from) + Rounds(chain, interval, from + 1, to)
  }

  /** No attempt in `from .. to - 1` vetoed or got data from both detectors. */
  predicate Quiet(hacker: nat -> Option<HackerData>, honey: nat -> Option<HoneypotData>, from: nat, to: nat) {
    forall j: nat :: from <= j < to ==> !Decisive(hacker(j), honey(j))
  }

  /** `k` is the first attempt that settles the loop. */
  predicate FirstDecisiveAt(hacker: nat -> Option<HackerData>, honey: nat -> Option<HoneypotData>,
                            maxRetries: int, k: nat) {
    k < maxRetries && Quiet(hacker, honey, 0, k) && Decisive(hacker(k), honey(k))
  }

  /** An attempt that settles nothing adds its three events and moves on. */
  lemma QuietStep(chain: string, hacker: nat -> Option<HackerData>, honey: nat -> Option<HoneypotData>,
                  interval: int, maxRetries: int, k: nat)
    requires k < maxRetries && !Decisive(hacker(k), honey(k))
    ensures var rest := Attempts(chain, hacker, honey, interval, maxRetries, k + 1);
      Attempts(chain, hacker, honey, interval, maxRetries, k) == (rest.0, Round(chain, interval, k) + rest.1)
  {
    var both := [HackerCall(k, ChainSlug(chain))] + [HoneypotCall(k, ChainId(chain))];
    assert both + [Sleep(interval)] == Round(chain, interval, k);
  }

  /** Attempts that settle nothing only add their three events. */
  lemma {:induction false} SkipQuiet(chain: string, hacker: nat -> Option<HackerData>, honey: nat -> Option<HoneypotData>,
                                     interval: int, maxRetries: int, k: nat, m: nat)
    requires k <= m <= maxRetries
    requires Quiet(hacker, honey, k, m)
    ensures Attempts(chain, hacker, honey, interval, maxRetries, k).0
         == Attempts(chain, hacker, honey, interval, maxRetries, m).0
    ensures Attempts(chain, hacker, honey, interval, maxRetries, k).1
         == Rounds(chain, interval, k, m) + Attempts(chain, hacker, honey, interval, maxRetries, m).1
    decreases m - k
  {
    if k < m {
      QuietStep(chain, hacker, honey, interval, maxRetries, k);
      SkipQuiet(chain, hacker, honey, interval, maxRetries, k + 1, m);
      var later := Attempts(chain, hacker, honey, interval, maxRetries, m).1;
      var round := Round(chain, interval, k);
      var rounds := Rounds(chain, interval, k + 1, m);
      assert round + (rounds + later) == (round + rounds) + later;
    }
  }

  /** The first attempt that settles decides everything: a hacker veto ends
      the run before honeypot.is is asked, a honeypot veto ends it before
      TokenSniffer is asked, and data from both leads to exactly one
      TokenSniffer call and a report built from that attempt's answers. */
  lemma FirstDecisiveDecides(chain: string, hacker: nat -> Option<HackerData>, honey: nat -> Option<HoneypotData>,
                             sniffer: Option<Value>, interval: int, maxRetries: int, k: nat)
    requires FirstDecisiveAt(hacker, honey, maxRetries, k)
    ensures var run := Api(chain, hacker, honey, sniffer, interval, maxRetries);
      && (HackerVetoes(hacker(k)) ==>
            run.outcome == VetoedByHacker(k)
            && run.trace == Rounds(chain, interval, 0, k) + [HackerCall(k, ChainSlug(chain))])
      && (!HackerVetoes(hacker(k)) && HoneypotVetoes(honey(k)) ==>
            run.outcome == VetoedByHoneypot(k)
            && run.trace == Rounds(chain, interval, 0, k)
                 + [HackerCall(k, ChainSlug(chain)), HoneypotCall(k, ChainId(chain))])
      && (!HackerVetoes(hacker(k)) && !HoneypotVetoes(honey(k)) ==>
            run.outcome == Reported(Report(hacker(k).value, honey(k).value, sniffer))
            && run.trace == Rounds(chain, interval, 0, k)
                 + [HackerCall(k, ChainSlug(chain)), HoneypotCall(k, ChainId(chain)), SnifferCall(ChainId(chain))])
  {
    SkipQuiet(chain, hacker, honey, interval, maxRetries, 0, k);
  }

  /** When no attempt settles, the budget runs out: `max_retries` rounds of
      calls, no TokenSniffer call, and `None`. */
  lemma QuietRunExhausts(chain: string, hacker: nat -> Option<HackerData>, honey: nat -> Option<HoneypotData>,
                         sniffer: Option<Value>, interval: int, maxRetries: nat)
    requires Quiet(hacker, honey, 0, maxRetries)
    ensures Api(chain, hacker, honey, sniffer, interval, maxRetries).outcome == Exhausted
    ensures Api(chain, hacker, honey, sniffer, interval, maxRetries).trace == Rounds(chain, interval, 0, maxRetries)
  {
    SkipQuiet(chain, hacker, honey, interval, maxRetries, 0, maxRetries);
    assert Rounds(chain, interval, 0, maxRetries) + [] == Rounds(chain, interval, 0, maxRetries);
  }

  /** With `max_retries = 0` no detector is called at all. */
  lemma ZeroBudgetCallsNothing(chain: string, hacker: nat -> Option<HackerData>, honey: nat -> Option<HoneypotData>,
                               sniffer: Option<Value>, interval: int)
    ensures Api(chain, hacker, honey, sniffer, interval, 0) == Run(Exhausted, [])
  {
  }

  /** With a negative budget the loop never runs, the exhaustion test
      `retries == max_retries` fails, TokenSniffer is called, and building
      the result raises because `hacker_data` is unbound. */
  lemma NegativeBudgetRaises(chain: string, hacker: nat -> Option<HackerData>, honey: nat -> Option<HoneypotData>,
                             sniffer: Option<Value>, interval: int, maxRetries: int)
    requires maxRetries < 0
    ensures Api(chain, hacker, honey, sniffer, interval, maxRetries) == Run(Unbound, [SnifferCall(ChainId(chain))])
  {
  }

  /** Either some attempt below the budget settles first, or none does. */
  lemma {:induction false} FirstDecisiveOrQuiet(hacker: nat -> Option<HackerData>, honey: nat -> Option<HoneypotData>,
                                                maxRetries: nat, from: nat)
    requires from <= maxRetries && Quiet(hacker, honey, 0, from)
    ensures Quiet(hacker, honey, 0, maxRetries) || exists k: nat :: FirstDecisiveAt(hacker, honey, maxRetries, k)
    decreases maxRetries - from
  {
    if from < maxRetries {
      if Decisive(hacker(from), honey(from)) {
        assert FirstDecisiveAt(hacker, honey, maxRetries, from);
      } else {
        FirstDecisiveOrQuiet(hacker, honey, maxRetries, from + 1);
      }
    }
  }

  /** At most one attempt can be the first to settle. */
  lemma FirstDecisiveUnique(hacker: nat -> Option<HackerData>, honey: nat -> Option<HoneypotData>,
                            maxRetries: int, k: nat, k': nat)
    requires FirstDecisiveAt(hacker, honey, maxRetries, k) && FirstDecisiveAt(hacker, honey, maxRetries, k')
    ensures k == k'
  {
  }

  /** The complete answer: each outcome of `api` happens exactly when the
      detectors' answers say so. Veto A needs all three of its conditions
      in the first settling attempt; veto B is only looked at when veto A
      did not fire; the budget is exhausted exactly when nothing settled. */
  lemma ApiCharacterised(chain: string, hacker: nat -> Option<HackerData>, honey: nat -> Option<HoneypotData>,
                         sniffer: Option<Value>, interval: int, maxRetries: nat)
    ensures var o := Api(chain, hacker, honey, sniffer, interval, maxRetries).outcome;
      && (o.VetoedByHacker? <==>
            exists k: nat :: FirstDecisiveAt(hacker, honey, maxRetries, k) && HackerVetoes(hacker(k)))
      && (o.VetoedByHoneypot? <==>
            exists k: nat :: FirstDecisiveAt(hacker, honey, maxRetries, k)
              && !HackerVetoes(hacker(k)) && HoneypotVetoes(honey(k)))
      && (o.Reported? <==>
            exists k: nat :: FirstDecisiveAt(hacker, honey, maxRetries, k)
              && !HackerVetoes(hacker(k)) && !HoneypotVetoes(honey(k)))
      && (o.Exhausted? <==> Quiet(hacker, honey, 0, maxRetries))
  {
    var run := Api(chain, hacker, honey, sniffer, interval, maxRetries);
    FirstDecisiveOrQuiet(hacker, honey, maxRetries, 0);
    if exists k: nat :: FirstDecisiveAt(hacker, honey, maxRetries, k) {
      var k: nat :| FirstDecisiveAt(hacker, honey, maxRetries, k);
      FirstDecisiveDecides(chain, hacker, honey, sniffer, interval, maxRetries, k);
      forall k': nat | FirstDecisiveAt(hacker, honey, maxRetries, k') ensures k' == k {
        FirstDecisiveUnique(hacker, honey, maxRetries, k, k');
      }
      assert !Quiet(hacker, honey, 0, maxRetries);
    } else {
      QuietRunExhausts(chain, hacker, honey, sniffer, interval, maxRetries);
    }
  }

  /** Per-attempt order: every honeypot.is call comes right after the
      hackers.tools call of the same attempt, and attempts only go up. */
  predicate Ordered(t: seq<Call>, slug: string) {
    && (forall i :: 0 <= i < |t| && t[i].HoneypotCall? ==> 0 < i && t[i - 1] == HackerCall(t[i].attempt, slug))
    && (forall i, j :: 0 <= i < j < |t| && t[i].HackerCall? && t[j].HackerCall? ==> t[i].attempt < t[j].attempt)
  }

  lemma {:induction false} AttemptsOrdered(chain: string, hacker: nat -> Option<HackerData>, honey: nat -> Option<HoneypotData>,
                                           interval: int, maxRetries: int, k: nat)
    ensures Ordered(Attempts(chain, hacker, honey, interval, maxRetries, k).1, ChainSlug(chain))
    decreases maxRetries - k
  {
    if k < maxRetries {
      var h := hacker(k);
      var y := honey(k);
      if !HackerVetoes(h) && !HoneypotVetoes(y) && !(h.Some? && y.Some?) {
        AttemptsOrdered(chain, hacker, honey, interval, maxRetries, k + 1);
        var rest := Attempts(chain, hacker, honey, interval, maxRetries, k + 1).1;
        var head := [HackerCall(k, ChainSlug(chain))] + [HoneypotCall(k, ChainId(chain))] + [Sleep(interval)];
        var t := head + rest;
        assert t == Attempts(chain, hacker, honey, interval, maxRetries, k).1;
        assert forall i :: 3 <= i < |t| ==> t[i] == rest[i - 3];
        assert |rest| > 0 ==> !rest[0].HoneypotCall?;
        forall i, j | 0 <= i < j < |t| && t[i].HackerCall? && t[j].HackerCall?
          ensures t[i].attempt < t[j].attempt
        {
          if i < 3 {
            assert i == 0 && j >= 3;
            assert k + 1 <= CallAttempt(rest[j - 3]);
          }
        }
      }
    }
  }

  /** The order holds of every trace `api` produces; TokenSniffer, when
      called, is the very last call. */
  lemma HackerBeforeHoneypot(chain: string, hacker: nat -> Option<HackerData>, honey: nat -> Option<HoneypotData>,
                             sniffer: Option<Value>, interval: int, maxRetries: int)
    ensures Ordered(Api(chain, hacker, honey, sniffer, interval, maxRetries).trace, ChainSlug(chain))
    ensures var t := Api(chain, hacker, honey, sniffer, interval, maxRetries).trace;
      forall i :: 0 <= i < |t| && t[i].SnifferCall? ==> i == |t| - 1
  {
    AttemptsOrdered(chain, hacker, honey, interval, maxRetries, 0);
    var t := Attempts(chain, hacker, honey, interval, maxRetries, 0).1;
    var t' := t + [SnifferCall(ChainId(chain))];
    assert forall i :: 0 <= i < |t| ==> t'[i] == t[i];
  }

  /** `api` over the raw upstream answers of each attempt, as the adapters
      normalise them. */
  function ApiOnAnswers(chain: string, pages: nat -> Option<Page>, answers: nat -> Option<Response>,
                        snifferAnswer: Option<Response>, interval: int, maxRetries: int): Run
  {
    Api(chain, (k: nat) => CheckHacker(pages(k)), (k: nat) => CheckHoneypotIs(answers(k)),
        CheckTokenSniffer(snifferAnswer), interval, maxRetries)
  }

  /** When honeypot.is never states a verdict, veto B never fires: a
      missing `isHoneypot` does not count as a honeypot. */
  lemma MissingVerdictNeverVetoes(chain: string, pages: nat -> Option<Page>, answers: nat -> Option<Response>,
                                  snifferAnswer: Option<Response>, interval: int, maxRetries: nat)
    requires forall k: nat :: UpstreamVerdict(if answers(k).Some? && answers(k).value.body.Some?
                                              then answers(k).value.body.value else JNull) == JNull
    ensures !ApiOnAnswers(chain, pages, answers, snifferAnswer, interval, maxRetries).outcome.VetoedByHoneypot?
  {
    var hacker := (k: nat) => CheckHacker(pages(k));
    var honey := (k: nat) => CheckHoneypotIs(answers(k));
    ApiCharacterised(chain, hacker, honey, CheckTokenSniffer(snifferAnswer), interval, maxRetries);
    forall k: nat ensures !HoneypotVetoes(honey(k)) {
      if honey(k).Some? {
        assert honey(k).value.honeypotResult == JNull;
      }
    }
  }
}

=== FILE: contracts.dfy ===
/** The per-contract record of the monitor (main.py): deciding from an
    explorer answer whether a contract's source is published, the ERC20
    probe, and the record `analyze_contract` inserts. The record store is
    a sequence in insertion order; RPC and explorer answers are inputs. */
module Contracts {
  import opened Wrappers
  import opened Json

  datatype Chain = Eth | Base

  datatype TokenDetails = TokenDetails(name: string, symbol: string, decimals: int)

  /** One stored document. `sourceCode` is absent until the source is known. */
  datatype ContractRecord = ContractRecord(
    address: string,
    deployer: string,
    timestamp: int,
    verified: bool,
    details: Option<TokenDetails>,
    tokensniffer: Option<Value>,
    chain: Chain,
    sourceCode: Option<Value>)

  /** A contract-creation transaction handed to `analyze_contract`. */
  datatype Deployment = Deployment(deployer: string, txHash: string, chain: Chain)

  // ---------------------------------------------------------------------
  // fetch_source_code

  predicate HasKey(body: Value, key: string) {
    body.JObj? && key in body.fields
  }

  /** The answer's status is the string "1". */
  predicate StatusOk(body: Value) {
    HasKey(body, "status") && body.fields["status"] == JStr("1")
  }

  /** The explorer answer lists a first entry carrying a SourceCode field. */
  predicate ListsSource(body: Value) {
    && StatusOk(body)
    && HasKey(body, "result") && body.fields["result"].JList?
    && |body.fields["result"].items| > 0
    && HasKey(body.fields["result"].items[0], "SourceCode")
  }

  /** `fetch_source_code`: `response` is the decoded explorer answer, or
      `None` when the request or the decoding raised. The function has no
      `try`, so a missing key or a wrongly typed value raises (`Failure`).
      A `Success(JNull)` is Python's `None`. */
  function FetchSourceCode(response: Option<Value>): (r: Result<Value, Fault>)
    ensures response.Some? && ListsSource(response.value) ==>
      r == Success(response.value.fields["result"].items[0].fields["SourceCode"])
    ensures response.Some? && HasKey(response.value, "status") && !StatusOk(response.value) ==>
      r == Success(JNull)
    ensures (response.Some? && StatusOk(response.value) && HasKey(response.value, "result")
             && !Truthy(response.value.fields["result"])) ==> r == Success(JNull)
    ensures r.Success? && r.value != JNull ==>
      && response.Some? && StatusOk(response.value)
      && HasKey(response.value, "result") && Truthy(response.value.fields["result"])
    ensures r.Failure? ==> response.None? || !ListsSource(response.value)
    ensures r.Failure? <==>
      || response.None?
      || !HasKey(response.value, "status")
      || (&& StatusOk(response.value)
          && (|| !HasKey(response.value, "result")
              || (Truthy(response.value.fields["result"]) && !ListsSource(response.value))))
  {
    var body :- if response.Some? then Success(response.value) else Failure(RequestFailed);
    var status :- Subscript(body, StrKey("status"));
    if status != JStr("1") then Success(JNull)
    else
      var result :- Subscript(body, StrKey("result"));
      if !Truthy(result) then Success(JNull)
      else
        var first :- Subscript(result, IntKey(0));
        Subscript(first, StrKey("SourceCode"))
  }

  /** The call sites test the returned source for truthiness: `None` and
      the empty string both count as unverified. */
  predicate Verifies(src: Value) {
    Truthy(src)
  }

  // ---------------------------------------------------------------------
  // check_erc20

  /** The ERC20 probe: whether the ABI file was read, and the answer of each
      contract call (`None` when the call raised). */
  datatype Erc20Calls = Erc20Calls(abiLoaded: bool, name: Option<string>, symbol: Option<string>, decimals: Option<int>)

  /** `check_erc20`: `(True, details)` when the ABI loads and all three calls
      answer, `(False, None)` as soon as one of them raises. */
  function CheckErc20(calls: Erc20Calls): (r: (bool, Option<TokenDetails>))
    ensures r.0 <==> calls.abiLoaded && calls.name.Some? && calls.symbol.Some? && calls.decimals.Some?
    ensures r.0 ==> r.1 == Some(TokenDetails(calls.name.value, calls.symbol.value, calls.decimals.value))
    ensures !r.0 ==> r.1.None?
  {
    if !calls.abiLoaded then (false, None)
    else
      match calls.name
      case None => (false, None)
      case Some(name) =>
        match calls.symbol
        case None => (false, None)
        case Some(symbol) =>
          match calls.decimals
          case None => (false, None)
          case Some(decimals) => (true, Some(TokenDetails(name, symbol, decimals)))
  }

  // ---------------------------------------------------------------------
  // analyze_contract

  datatype Receipt = Receipt(contractAddress: Option<string>, blockNumber: int)

  /** What `analyze_contract` learns from the outside world: the receipt
      (`None` when the lookup raised), the ERC20 probe, the block timestamp
      (`None` when the lookup raised), the explorer answer, whether the
      Telegram message went through, and whether `insert_one` did. */
  datatype Probe = Probe(
    receipt: Option<Receipt>,
    erc20: Erc20Calls,
    timestamp: Option<int>,
    explorer: Option<Value>,
    delivered: bool,
    inserted: bool)

  /** The "New VERIFIED / UNVERIFIED ERC20 token" message. */
  datatype Notice = NewToken(chain: Chain, address: string, details: Option<TokenDetails>, verified: bool)

  /** The store and the messages sent after one analysis task; `crashed`
      when the task ended in an exception. */
  datatype Analysis = Analysis(store: seq<ContractRecord>, notices: seq<Notice>, crashed: bool)

  /** The receipt names a contract address that is truthy (non-empty). */
  predicate HasAddress(p: Probe) {
    p.receipt.Some? && p.receipt.value.contractAddress.Some? && p.receipt.value.contractAddress.value != ""
  }

  function AnalyzeContract(store: seq<ContractRecord>, d: Deployment, p: Probe): (a: Analysis)
    ensures |store| <= |a.store| <= |store| + 1 && a.store[..|store|] == store
    ensures |a.store| == |store| + 1 ==> HasAddress(p) && CheckErc20(p.erc20).0
    ensures |a.notices| <= 1
    ensures |a.store| == |store| + 1 <==> |a.notices| == 1 && !a.crashed
  {
    match p.receipt
    case None => Analysis(store, [], true)
    case Some(receipt) =>
      if !(receipt.contractAddress.Some? && receipt.contractAddress.value != "") then
        Analysis(store, [], false)
      else
        var address := receipt.contractAddress.value;
        var (isErc20, details) := CheckErc20(p.erc20);
        match p.timestamp
        case None => Analysis(store, [], true)
        case Some(timestamp) =>
          if !isErc20 then Analysis(store, [], false)
          else
            match FetchSourceCode(p.explorer)
            case Failure(_) => Analysis(store, [], true)
            case Success(src) =>
              var verified := Verifies(src);
              var notice := NewToken(d.chain, address, details, verified);
              if !p.delivered then Analysis(store, [], true)
              else if !p.inserted then Analysis(store, [notice], true)
              else
                var record := ContractRecord(address, d.deployer, timestamp, verified, details, None, d.chain,
                                             if verified then Some(src) else None);
                assert (store + [record])[..|store|] == store;
                Analysis(store + [record], [notice], false)
  }

  /** Everything that has to go right for a record to be inserted. */
  predicate Persists(p: Probe) {
    && HasAddress(p)
    && CheckErc20(p.erc20).0
    && p.timestamp.Some?
    && FetchSourceCode(p.explorer).Success?
    && p.delivered
    && p.inserted
  }

  /** A record is inserted exactly when the task gets that far. It carries
      the deployment's chain and deployer, the ERC20 details, no
      TokenSniffer data, `verified` exactly when the source is truthy, and
      the source only in that case. The one message sent names the chain,
      the address and the details, and says VERIFIED exactly when the
      source is truthy. */
  lemma PersistedRecordShape(store: seq<ContractRecord>, d: Deployment, p: Probe)
    ensures |AnalyzeContract(store, d, p).store| == |store| + 1 <==> Persists(p)
    ensures Persists(p) ==>
      var r := AnalyzeContract(store, d, p).store[|store|];
      var src := FetchSourceCode(p.explorer).value;
      && r.address == p.receipt.value.contractAddress.value
      && r.chain == d.chain && r.deployer == d.deployer
      && r.timestamp == p.timestamp.value
      && r.details == CheckErc20(p.erc20).1 && r.details.Some?
      && r.tokensniffer.None?
      && (r.verified <==> Truthy(src))
      && (r.sourceCode.Some? <==> r.verified)
      && (r.verified ==> r.sourceCode == Some(src))
    ensures Persists(p) ==>
      AnalyzeContract(store, d, p).notices
        == [NewToken(d.chain, p.receipt.value.contractAddress.value, CheckErc20(p.erc20).1,
                     Truthy(FetchSourceCode(p.explorer).value))]
  {
  }

  /** The message goes out before the insert: when the insert raises, the
      notice has been sent but the store is unchanged. */
  lemma FailedInsertStillNotifies(store: seq<ContractRecord>, d: Deployment, p: Probe)
    requires Persists(p.(inserted := true)) && !p.inserted
    ensures var a := AnalyzeContract(store, d, p);
      && a.store == store && a.crashed
      && a.notices == [NewToken(d.chain, p.receipt.value.contractAddress.value, CheckErc20(p.erc20).1,
                                Truthy(FetchSourceCode(p.explorer).value))]
  {
  }

  /** A contract that is not an ERC20 token, or a receipt without a
      contract address, leaves the store unchanged and sends nothing. */
  lemma NonTokenNotPersisted(store: seq<ContractRecord>, d: Deployment, p: Probe)
    requires p.receipt.Some?
    requires !HasAddress(p) || !CheckErc20(p.erc20).0
    requires HasAddress(p) ==> p.timestamp.Some?
    ensures AnalyzeContract(store, d, p) == Analysis(store, [], false)
  {
  }

  /** There is no lookup before the insert: analysing the same deployment
      twice leaves two records with the same address. */
  lemma NoDeduplication(store: seq<ContractRecord>, d: Deployment, p: Probe)
    requires Persists(p)
    ensures var once := AnalyzeContract(store, d, p).store;
      var twice := AnalyzeContract(once, d, p).store;
      && |twice| == |store| + 2
      && twice[|store|].address == twice[|store| + 1].address
  {
    PersistedRecordShape(store, d, p);
    var once := AnalyzeContract(store, d, p).store;
    PersistedRecordShape(once, d, p);
  }
}

=== FILE: hacker.dfy ===
/** The hackers.tools detector (`check_hacker`): the derived fields it reads
    from a rendered report page. The page is abstract: its `<p>` elements and
    the two families of action `<div>`s (green border for allowed actions,
    red border for refused ones), each already selected by its style. */
module Hacker {
  import opened Wrappers
  import opened PyText
  import opened Seqs

  const SafeText := "Looks safe for now"
  const NA := "N/A"

  /** A `<p>` element: its full text, its `.string` (present only when the
      element has a single text child) and the text of its first `<span>`. */
  datatype Paragraph = Paragraph(text: string, ownString: Option<string>, span: Option<string>)

  /** An action `<div>`: the text of its first `<span>`, if it has one. */
  datatype ActionDiv = ActionDiv(span: Option<string>)

  datatype Page = Page(paragraphs: seq<Paragraph>, positive: seq<ActionDiv>, negative: seq<ActionDiv>)

  /** The record `check_hacker` returns; `actions` holds the keys
      can_buy / can_sell / can_transfer that were found. */
  datatype HackerData = HackerData(isSafe: bool, pair: string, liquidity: string, actions: map<string, string>)

  predicate StatesSafe(p: Paragraph) {
    p.ownString == Some(SafeText)
  }

  predicate MentionsPair(p: Paragraph) {
    p.ownString.Some? && |p.ownString.value| > 0 && Contains(Lower(p.ownString.value), "pair on")
  }

  /** Both spellings occur on the page, the misspelt one included. */
  predicate MentionsLiquidity(p: Paragraph) {
    Contains(p.text, "Liqudity:") || Contains(p.text, "Liquidity:")
  }

  /** BeautifulSoup's `find` over the paragraphs is `FindFirst`. */
  predicate IsSafe(ps: seq<Paragraph>) {
    FindFirst(ps, StatesSafe).Some?
  }

  function Pair(ps: seq<Paragraph>): string {
    match FindFirst(ps, MentionsPair)
    case None => NA
    case Some(i) => ps[i].text
  }

  function Liquidity(ps: seq<Paragraph>): string {
    match FindFirst(ps, MentionsLiquidity)
    case None => NA
    case Some(i) =>
      match ps[i].span
      case None => NA
      case Some(t) => Strip(t)
  }

  /** The page is safe exactly when some paragraph reads the safe text. */
  lemma SafeIffSafeText(ps: seq<Paragraph>)
    ensures IsSafe(ps) <==> exists i :: 0 <= i < |ps| && ps[i].ownString == Some(SafeText)
  {
    if exists i :: 0 <= i < |ps| && ps[i].ownString == Some(SafeText) {
      var i :| 0 <= i < |ps| && ps[i].ownString == Some(SafeText);
      assert StatesSafe(ps[i]);
    }
  }

  /** The liquidity figure comes from the FIRST labelled paragraph: its
      stripped span text, or "N/A" when it has no span. */
  lemma LiquidityFromFirstLabel(ps: seq<Paragraph>, i: nat)
    requires i < |ps| && MentionsLiquidity(ps[i])
    requires forall j :: 0 <= j < i ==> !MentionsLiquidity(ps[j])
    ensures Liquidity(ps) == if ps[i].span.Some? then Strip(ps[i].span.value) else NA
  {
    assert FindFirst(ps, MentionsLiquidity) == Some(i);
  }

  /** Without a labelled paragraph the liquidity is "N/A". */
  lemma NoLabelNoLiquidity(ps: seq<Paragraph>)
    requires forall j :: 0 <= j < |ps| ==> !MentionsLiquidity(ps[j])
    ensures Liquidity(ps) == NA
  {
  }

  /** Which key an action text fills; the first matching test wins. */
  function ActionKey(text: string): Option<string> {
    if Contains(text, "Can buy") then Some("can_buy")
    else if Contains(text, "Can sell") then Some("can_sell")
    else if Contains(text, "Can transfer") then Some("can_transfer")
    else None
  }

  predicate AllSpans(divs: seq<ActionDiv>) {
    forall j :: 0 <= j < |divs| ==> divs[j].span.Some?
  }

  /** One loop over action divs: each text overwrites the entry of its key.
      A div without a `<span>` raises, which `None` stands for. */
  function Record(acc: map<string, string>, divs: seq<ActionDiv>): Option<map<string, string>>
    decreases |divs|
  {
    if divs == [] then Some(acc)
    else
      var text :- divs[0].span;
      var acc' := match ActionKey(text)
        case Some(k) => acc[k := text]
        case None => acc;
      Record(acc', divs[1..])
  }

  /** Reference definition: the text of the LAST div filed under `key`. */
  function LastFor(divs: seq<ActionDiv>, key: string): Option<string>
    decreases |divs|
  {
    if divs == [] then None
    else
      var d := divs[|divs| - 1];
      if d.span.Some? && ActionKey(d.span.value) == Some(key) then d.span
      else LastFor(divs[..|divs| - 1], key)
  }

  /** The overwrite loop leaves, for every key, the last text filed under it
      and otherwise what was there before; it fails exactly when a div has
      no span. */
  lemma {:induction false} RecordKeepsLast(acc: map<string, string>, divs: seq<ActionDiv>)
    ensures Record(acc, divs).Some? <==> AllSpans(divs)
    ensures Record(acc, divs).Some? ==> forall key ::
      (key in Record(acc, divs).value <==> key in acc || LastFor(divs, key).Some?)
    ensures Record(acc, divs).Some? ==> forall key :: key in Record(acc, divs).value ==>
      Record(acc, divs).value[key] == (if LastFor(divs, key).Some? then LastFor(divs, key).value else acc[key])
    decreases |divs|
  {
    if divs != [] {
      if divs[0].span.None? {
        assert !AllSpans(divs);
      } else {
        var text := divs[0].span.value;
        var acc' := match ActionKey(text)
          case Some(k) => acc[k := text]
          case None => acc;
        RecordKeepsLast(acc', divs[1..]);
        assert AllSpans(divs) <==> AllSpans(divs[1..]) by {
          if AllSpans(divs[1..]) {
            forall j | 0 <= j < |divs| ensures divs[j].span.Some? {
              if j > 0 { assert divs[j] == divs[1..][j - 1]; }
            }
          }
        }
        forall key ensures LastFor(divs, key) ==
          (if LastFor(divs[1..], key).Some? then LastFor(divs[1..], key)
           else if ActionKey(text) == Some(key) then Some(text) else None)
        {
          LastForCons(divs, key);
        }
      }
    }
  }

  /** Peeling the first div off: the last match lies in the rest, or is it. */
  lemma {:induction false} LastForCons(divs: seq<ActionDiv>, key: string)
    requires divs != [] && divs[0].span.Some?
    ensures LastFor(divs, key) ==
      (if LastFor(divs[1..], key).Some? then LastFor(divs[1..], key)
       else if ActionKey(divs[0].span.value) == Some(key) then divs[0].span else None)
    decreases |divs|
  {
    if |divs| > 1 {
      var init := divs[..|divs| - 1];
      assert init[1..] == divs[1..][..|divs[1..]| - 1];
      assert init[0] == divs[0];
      LastForCons(init, key);
    }
  }

  /** `check_hacker`. `fetched` is the page as downloaded, or `None` when the
      request raised; every exception inside the function yields `None`. */
  function CheckHacker(fetched: Option<Page>): (r: Option<HackerData>)
    ensures r.Some? <==> fetched.Some? && AllSpans(fetched.value.positive) && AllSpans(fetched.value.negative)
    ensures r.Some? ==> r.value.isSafe == IsSafe(fetched.value.paragraphs)
  {
    var page :- fetched;
    RecordKeepsLast(map[], page.positive);
    var green :- Record(map[], page.positive);
    RecordKeepsLast(green, page.negative);
    var actions :- Record(green, page.negative);
    var ps := page.paragraphs;
    Some(HackerData(IsSafe(ps), Pair(ps), Liquidity(ps), actions))
  }

  /** A refused (red) action overrides an allowed (green) one under the
      same key; a key is present only when some div was filed under it. */
  lemma NegativeOverridesPositive(page: Page, key: string)
    requires CheckHacker(Some(page)).Some?
    ensures key in CheckHacker(Some(page)).value.actions <==>
      LastFor(page.negative, key).Some? || LastFor(page.positive, key).Some?
    ensures LastFor(page.negative, key).Some? ==>
      CheckHacker(Some(page)).value.actions[key] == LastFor(page.negative, key).value
    ensures LastFor(page.negative, key).None? && LastFor(page.positive, key).Some? ==>
      CheckHacker(Some(page)).value.actions[key] == LastFor(page.positive, key).value
  {
    RecordKeepsLast(map[], page.positive);
    var green := Record(map[], page.positive).value;
    RecordKeepsLast(green, page.negative);
  }
}

=== FILE: honeypot.dfy ===
/** The honeypot.is detector (`check_honeypot_is`): a 200 answer is
    normalised into a fixed record with defaults for missing fields; any
    other status, a body that is not JSON, or a section that is not an
    object (the `.get` on it raises) gives `None`. */
module HoneypotIs {
  import opened Wrappers
  import opened Json
  import opened Upstream

  /** The defaults `.get` falls back to: the string "N/A", and false. */
  const NAValue: Value := JStr("N/A")
  const No: Value := JBool(false)

  datatype TokenInfo = TokenInfo(name: Value, symbol: Value, decimals: Value, address: Value, totalHolders: Value)
  datatype Summary = Summary(risk: Value, riskLevel: Value)
  datatype Simulation = Simulation(buyTax: Value, sellTax: Value, transferTax: Value, buyGas: Value, sellGas: Value)
  datatype ContractCode = ContractCode(openSource: Value, rootOpenSource: Value, isProxy: Value, hasProxyCalls: Value)
  datatype PairInfo = PairInfo(name: Value, address: Value, kind: Value, reserves0: Value, reserves1: Value, liquidity: Value)

  /** The normalised record. `honeypotResult` is null (Python `None`) when
      the upstream verdict is missing. */
  datatype HoneypotData = HoneypotData(
    token: TokenInfo,
    withToken: TokenInfo,
    summary: Summary,
    simulation: Simulation,
    honeypotResult: Value,
    contractCode: ContractCode,
    pair: PairInfo)

  const UnknownToken := TokenInfo(NAValue, NAValue, NAValue, NAValue, NAValue)
  const UnknownCode := ContractCode(No, No, No, No)

  /** The veto test the aggregator applies: the verdict is truthy. */
  predicate FlagsHoneypot(d: HoneypotData) {
    Truthy(d.honeypotResult)
  }

  /** `d.get(key, {})` is absent or an object, so a further `.get` succeeds. */
  predicate ObjectOrAbsent(d: Value, key: string)
    requires d.JObj?
  {
    key !in d.fields || d.fields[key].JObj?
  }

  /** Independent description of the bodies the normaliser accepts. */
  predicate WellShaped(data: Value) {
    && data.JObj?
    && ObjectOrAbsent(data, "token")
    && ObjectOrAbsent(data, "withToken")
    && ObjectOrAbsent(data, "summary")
    && ObjectOrAbsent(data, "simulationResult")
    && ObjectOrAbsent(data, "honeypotResult")
    && ObjectOrAbsent(data, "contractCode")
    && ObjectOrAbsent(data, "pair")
    && ("pair" in data.fields ==> ObjectOrAbsent(data.fields["pair"], "pair"))
  }

  /** The upstream verdict `honeypotResult.isHoneypot`, null when absent. */
  function UpstreamVerdict(data: Value): Value {
    if data.JObj? && "honeypotResult" in data.fields
      && data.fields["honeypotResult"].JObj? && "isHoneypot" in data.fields["honeypotResult"].fields
    then data.fields["honeypotResult"].fields["isHoneypot"]
    else JNull
  }

  function ReadToken(o: Value): Option<TokenInfo> {
    var name :- Get(o, "name", NAValue);
    var symbol :- Get(o, "symbol", NAValue);
    var decimals :- Get(o, "decimals", NAValue);
    var address :- Get(o, "address", NAValue);
    var holders :- Get(o, "totalHolders", NAValue);
    Some(TokenInfo(name, symbol, decimals, address, holders))
  }

  function Normalise(data: Value): Option<HoneypotData> {
    var tokenInfo :- Get(data, "token", Empty);
    var withTokenInfo :- Get(data, "withToken", Empty);
    var summary :- Get(data, "summary", Empty);
    var simulation :- Get(data, "simulationResult", Empty);
    var verdict :- Get(data, "honeypotResult", Empty);
    var honeypotResult :- Get(verdict, "isHoneypot", JNull);
    var code :- Get(data, "contractCode", Empty);
    var pair :- Get(data, "pair", Empty);
    var token :- ReadToken(tokenInfo);
    var withToken :- ReadToken(withTokenInfo);
    var risk :- Get(summary, "risk", NAValue);
    var riskLevel :- Get(summary, "riskLevel", NAValue);
    var buyTax :- Get(simulation, "buyTax", NAValue);
    var sellTax :- Get(simulation, "sellTax", NAValue);
    var transferTax :- Get(simulation, "transferTax", NAValue);
    var buyGas :- Get(simulation, "buyGas", NAValue);
    var sellGas :- Get(simulation, "sellGas", NAValue);
    var openSource :- Get(code, "openSource", No);
    var rootOpenSource :- Get(code, "rootOpenSource", No);
    var isProxy :- Get(code, "isProxy", No);
    var hasProxyCalls :- Get(code, "hasProxyCalls", No);
    var inner :- Get(pair, "pair", Empty);
    var pairName :- Get(inner, "name", NAValue);
    var pairAddress :- Get(inner, "address", NAValue);
    var pairKind :- Get(inner, "type", NAValue);
    var reserves0 :- Get(pair, "reserves0", NAValue);
    var reserves1 :- Get(pair, "reserves1", NAValue);
    var liquidity :- Get(pair, "liquidity", NAValue);
    Some(HoneypotData(
      token,
      withToken,
      Summary(risk, riskLevel),
      Simulation(buyTax, sellTax, transferTax, buyGas, sellGas),
      honeypotResult,
      ContractCode(openSource, rootOpenSource, isProxy, hasProxyCalls),
      PairInfo(pairName, pairAddress, pairKind, reserves0, reserves1, liquidity)))
  }

  /** `check_honeypot_is`. `response` is `None` when the request raised. */
  function CheckHoneypotIs(response: Option<Response>): (r: Option<HoneypotData>)
    ensures r.Some? <==>
      && response.Some?
      && response.value.status == 200
      && response.value.body.Some?
      && WellShaped(response.value.body.value)
    ensures r.Some? ==> r.value.honeypotResult == UpstreamVerdict(response.value.body.value)
  {
    var resp :- response;
    if resp.status != 200 then None
    else
      var data :- resp.body;
      Normalise(data)
  }

  /** A missing `isHoneypot` (or a missing `honeypotResult` section) leaves
      the verdict null, which is falsy: it never raises the veto. */
  lemma MissingVerdictNeverFlags(response: Option<Response>)
    requires CheckHoneypotIs(response).Some?
    requires var data := response.value.body.value;
      "honeypotResult" !in data.fields || "isHoneypot" !in data.fields["honeypotResult"].fields
    ensures CheckHoneypotIs(response).value.honeypotResult == JNull
    ensures !FlagsHoneypot(CheckHoneypotIs(response).value)
  {
  }

  /** A section missing from the answer is filled with defaults: "N/A" for
      token, summary, simulation and pair fields, false for the four
      contract-code flags. */
  lemma MissingSectionsDefault(response: Option<Response>)
    requires CheckHoneypotIs(response).Some?
    ensures var d := CheckHoneypotIs(response).value; var data := response.value.body.value;
      && ("token" !in data.fields ==> d.token == UnknownToken)
      && ("withToken" !in data.fields ==> d.withToken == UnknownToken)
      && ("summary" !in data.fields ==> d.summary == Summary(NAValue, NAValue))
      && ("simulationResult" !in data.fields ==> d.simulation == Simulation(NAValue, NAValue, NAValue, NAValue, NAValue))
      && ("contractCode" !in data.fields ==> d.contractCode == UnknownCode)
      && ("pair" !in data.fields ==> d.pair == PairInfo(NAValue, NAValue, NAValue, NAValue, NAValue, NAValue))
  {
  }

  /** The value under `key` in the object `v`, or `default` when the key is
      absent. */
  function FieldOr(v: Value, key: string, default: Value): Value {
    if v.JObj? && key in v.fields then v.fields[key] else default
  }

  /** Every field of the normalised record is the upstream value when the
      answer has it, and its default when either the field or its whole
      section is missing: "N/A" for token, summary, simulation and pair
      fields, false for the contract-code flags, null for the verdict. */
  lemma FieldsReadOrDefault(response: Option<Response>)
    requires CheckHoneypotIs(response).Some?
    ensures var d := CheckHoneypotIs(response).value; var data := response.value.body.value;
      var token := FieldOr(data, "token", Empty);
      var withToken := FieldOr(data, "withToken", Empty);
      var summary := FieldOr(data, "summary", Empty);
      var simulation := FieldOr(data, "simulationResult", Empty);
      var code := FieldOr(data, "contractCode", Empty);
      var pair := FieldOr(data, "pair", Empty);
      var inner := FieldOr(pair, "pair", Empty);
      && d.token == TokenInfo(FieldOr(token, "name", NAValue), FieldOr(token, "symbol", NAValue),
                              FieldOr(token, "decimals", NAValue), FieldOr(token, "address", NAValue),
                              FieldOr(token, "totalHolders", NAValue))
      && d.withToken == TokenInfo(FieldOr(withToken, "name", NAValue), FieldOr(withToken, "symbol", NAValue),
                                  FieldOr(withToken, "decimals", NAValue), FieldOr(withToken, "address", NAValue),
                                  FieldOr(withToken, "totalHolders", NAValue))
      && d.summary == Summary(FieldOr(summary, "risk", NAValue), FieldOr(summary, "riskLevel", NAValue))
      && d.simulation == Simulation(FieldOr(simulation, "buyTax", NAValue), FieldOr(simulation, "sellTax", NAValue),
                                    FieldOr(simulation, "transferTax", NAValue), FieldOr(simulation, "buyGas", NAValue),
                                    FieldOr(simulation, "sellGas", NAValue))
      && d.honeypotResult == FieldOr(FieldOr(data, "honeypotResult", Empty), "isHoneypot", JNull)
      && d.contractCode == ContractCode(FieldOr(code, "openSource", No), FieldOr(code, "rootOpenSource", No),
                                        FieldOr(code, "isProxy", No), FieldOr(code, "hasProxyCalls", No))
      && d.pair == PairInfo(FieldOr(inner, "name", NAValue), FieldOr(inner, "address", NAValue), FieldOr(inner, "type", NAValue),
                            FieldOr(pair, "reserves0", NAValue), FieldOr(pair, "reserves1", NAValue),
                            FieldOr(pair, "liquidity", NAValue))
  {
  }

  /** A field missing from a section that is present also takes its
      default; a field that is present is copied unchanged. */
  lemma MissingFieldsDefault(response: Option<Response>)
    requires CheckHoneypotIs(response).Some?
    ensures var d := CheckHoneypotIs(response).value; var data := response.value.body.value;
      && ("contractCode" in data.fields && "isProxy" !in data.fields["contractCode"].fields
          ==> d.contractCode.isProxy == No)
      && ("contractCode" in data.fields && "isProxy" in data.fields["contractCode"].fields
          ==> d.contractCode.isProxy == data.fields["contractCode"].fields["isProxy"])
      && ("summary" in data.fields && "risk" !in data.fields["summary"].fields ==> d.summary.risk == NAValue)
      && ("token" in data.fields && "name" !in data.fields["token"].fields ==> d.token.name == NAValue)
      && ("simulationResult" in data.fields && "buyTax" !in data.fields["simulationResult"].fields
          ==> d.simulation.buyTax == NAValue)
      && ("pair" in data.fields && "liquidity" !in data.fields["pair"].fields ==> d.pair.liquidity == NAValue)
  {
    FieldsReadOrDefault(response);
  }

  /** An empty 200 answer normalises to the all-defaults record, which does
      not flag a honeypot. */
  lemma EmptyAnswerNormalises()
    ensures CheckHoneypotIs(Some(Response(200, Some(Empty)))) == Some(HoneypotData(
      UnknownToken, UnknownToken, Summary(NAValue, NAValue), Simulation(NAValue, NAValue, NAValue, NAValue, NAValue),
      JNull, UnknownCode, PairInfo(NAValue, NAValue, NAValue, NAValue, NAValue, NAValue)))
  {
  }
}

=== FILE: json.dfy ===
/** Decoded JSON values, with the Python operations the adapters apply to
    them: truthiness, `d.get(key, default)` and `v[key]`. JSON `null` stands
    for Python's `None` wherever a value may be `None`. Numbers are integers. */
module Json {
  import opened Wrappers

  datatype Value =
    | JNull
    | JBool(b: bool)
    | JNum(n: int)
    | JStr(s: string)
    | JList(items: seq<Value>)
    | JObj(fields: map<string, Value>)

  const Empty: Value := JObj(map[])

  /** Python truthiness of a decoded JSON value. */
  predicate Truthy(v: Value) {
    match v
    case JNull => false
    case JBool(b) => b
    case JNum(n) => n != 0
    case JStr(s) => |s| > 0
    case JList(items) => |items| > 0
    case JObj(fields) => |fields| > 0
  }

  /** `d.get(key, default)`: `None` stands for the AttributeError raised when
      `d` is not a dict. A key that is present with value null gives null. */
  function Get(d: Value, key: string, default: Value): Option<Value> {
    match d
    case JObj(fields) => Some(if key in fields then fields[key] else default)
    case _ => None
  }

  /** The Python exceptions a subscript can raise. */
  datatype Fault = KeyError | IndexError | TypeError | RequestFailed

  datatype Key = StrKey(name: string) | IntKey(index: int)

  /** Python's `v[key]` on a decoded JSON value. */
  function Subscript(v: Value, key: Key): Result<Value, Fault> {
    match v
    case JObj(fields) =>
      if key.StrKey? && key.name in fields then Success(fields[key.name]) else Failure(KeyError)
    case JList(items) =>
      if !key.IntKey? then Failure(TypeError)
      else if 0 <= key.index < |items| then Success(items[key.index])
      else if -|items| <= key.index < 0 then Success(items[|items| + key.index])
      else Failure(IndexError)
    case JStr(s) =>
      if !key.IntKey? then Failure(TypeError)
      else if 0 <= key.index < |s| then Success(JStr([s[key.index]]))
      else if -|s| <= key.index < 0 then Success(JStr([s[|s| + key.index]]))
      else Failure(IndexError)
    case _ => Failure(TypeError)
  }
}

=== FILE: pytext.dfy ===
/** The few Python string operations the scraper relies on:
    `sub in s`, `s.lower()` and `s.strip()`. */
module PyText {

  /** `p` is a prefix of `s`. */
  predicate StartsWith(s: string, p: string) {
    |p| <= |s| && s[..|p|] == p
  }

  /** Python's `sub in s`. */
  predicate Contains(s: string, sub: string)
    decreases |s|
  {
    StartsWith(s, sub) || (|s| > 0 && Contains(s[1..], sub))
  }

  /** `sub` occurs in `s` starting at offset `i`. */
  predicate OccursAt(s: string, sub: string, i: int) {
    0 <= i <= |s| - |sub| && s[i..i + |sub|] == sub
  }

  /** `sub in s` holds exactly when `sub` occurs at some offset of `s`. */
  lemma {:induction false} ContainsAt(s: string, sub: string)
    ensures Contains(s, sub) <==> exists i :: OccursAt(s, sub, i)
    decreases |s|
  {
    assert OccursAt(s, sub, 0) ==> StartsWith(s, sub);
    if StartsWith(s, sub) {
      assert OccursAt(s, sub, 0);
    } else if |s| > 0 {
      ContainsAt(s[1..], sub);
      if Contains(s[1..], sub) {
        var i :| OccursAt(s[1..], sub, i);
        assert s[i + 1..i + 1 + |sub|] == s[1..][i..i + |sub|];
        assert OccursAt(s, sub, i + 1);
      }
      if exists i :: OccursAt(s, sub, i) {
        var i :| OccursAt(s, sub, i);
        assert s[1..][i - 1..i - 1 + |sub|] == s[i..i + |sub|];
        assert OccursAt(s[1..], sub, i - 1);
      }
    } else {
      assert forall i :: OccursAt(s, sub, i) ==> i == 0;
    }
  }

  /** `str.lower()` restricted to ASCII letters. */
  function LowerChar(c: char): char {
    if 'A' <= c <= 'Z' then (c as int + 32) as char else c
  }

  function Lower(s: string): (r: string)
    ensures |r| == |s|
    ensures forall i :: 0 <= i < |s| ==> r[i] == LowerChar(s[i])
  {
    if s == [] then [] else [LowerChar(s[0])] + Lower(s[1..])
  }

  /** The characters for which Python's `str.isspace()` holds. */
  predicate IsSpace(c: char) {
    || c == ' '
    || '\t' <= c <= '\r'
    || '\U{1c}' <= c <= '\U{1f}'
    || c == '\U{85}' || c == '\U{a0}' || c == '\U{1680}'
    || '\U{2000}' <= c <= '\U{200a}'
    || c == '\U{2028}' || c == '\U{2029}' || c == '\U{202f}'
    || c == '\U{205f}' || c == '\U{3000}'
  }

  /** Index of the first character of `s` that is not whitespace (or |s|). */
  function SpanStart(s: string): (lo: nat)
    ensures lo <= |s|
    ensures forall k :: 0 <= k < lo ==> IsSpace(s[k])
    ensures lo < |s| ==> !IsSpace(s[lo])
  {
    if s == [] || !IsSpace(s[0]) then 0 else 1 + SpanStart(s[1..])
  }

  /** One past the last character of `s` that is not whitespace (or 0). */
  function SpanEnd(s: string): (hi: nat)
    ensures hi <= |s|
    ensures forall k :: hi <= k < |s| ==> IsSpace(s[k])
    ensures 0 < hi ==> !IsSpace(s[hi - 1])
  {
    if s == [] || !IsSpace(s[|s| - 1]) then |s| else SpanEnd(s[..|s| - 1])
  }

  /** `r` is the part of `s` at offset `lo` with only whitespace around it. */
  predicate StrippedAt(s: string, r: string, lo: int) {
    && 0 <= lo <= |s| - |r|
    && s[lo..lo + |r|] == r
    && (forall k :: 0 <= k < lo ==> IsSpace(s[k]))
    && (forall k :: lo + |r| <= k < |s| ==> IsSpace(s[k]))
  }

  /** Python's `str.strip()` with no argument. */
  function Strip(s: string): (r: string)
    ensures r == [] || (!IsSpace(r[0]) && !IsSpace(r[|r| - 1]))
    ensures exists lo :: StrippedAt(s, r, lo)
  {
    var lo := SpanStart(s);
    var hi := SpanEnd(s);
    if lo < hi then
      assert StrippedAt(s, s[lo..hi], lo);
      s[lo..hi]
    else
      assert lo == |s|;
      assert StrippedAt(s, [], 0);
      []
  }
}

=== FILE: seqs.dfy ===
/** Searching a sequence. */
module Seqs {
  import opened Wrappers

  /** Position of the first element satisfying `f`. */
  function FindFirst<T>(s: seq<T>, f: T -> bool): (r: Option<nat>)
    ensures r.Some? ==> r.value < |s| && f(s[r.value])
    ensures r.Some? ==> forall j :: 0 <= j < r.value ==> !f(s[j])
    ensures r.None? ==> forall j :: 0 <= j < |s| ==> !f(s[j])
  {
    if s == [] then None
    else if f(s[0]) then Some(0)
    else
      match FindFirst(s[1..], f)
      case None => None
      case Some(i) => Some(i + 1)
  }
}

=== FILE: sniffer.dfy ===
/** The TokenSniffer detector (`check_token_sniffer`): the decoded payload
    of a 200 answer, `None` otherwise. */
module TokenSniffer {
  import opened Wrappers
  import opened Json
  import opened Upstream

  /** `response` is `None` when the request raised; a body that is not JSON
      raises inside the `try` too. A JSON `null` payload is Python's `None`. */
  function CheckTokenSniffer(response: Option<Response>): (r: Option<Value>)
    ensures r.Some? <==>
      && response.Some?
      && response.value.status == 200
      && response.value.body.Some?
      && response.value.body.value != JNull
    ensures r.Some? ==> r.value == response.value.body.value
  {
    var resp :- response;
    if resp.status == 200 then
      var payload :- resp.body;
      if payload == JNull then None else Some(payload)
    else
      None
  }
}

=== FILE: sweep.dfy ===
/** One pass of `retry_unverified_contracts`: for every record that was
    unverified when the pass began, ask the explorer again and, when the
    answer carries source code, mark the record verified and store the
    source. The pass ends early when a fetch or a write raises or a message
    cannot be sent, since nothing in the loop catches exceptions. */
module Sweep {
  import opened Wrappers
  import opened Json
  import opened Contracts
  import opened Seqs

  /** Which document `update_one` changes. The code filters on the address,
      which picks the FIRST record with that address; `SameRecord` is the
      record the loop is looking at. */
  datatype Target = FirstWithAddress | SameRecord

  /** "Contract ... has been verified." */
  datatype Verified = Verified(address: string, chain: Chain)

  datatype Pass = Pass(store: seq<ContractRecord>, notices: seq<Verified>, crashed: bool)

  /** The fields a pass never touches, and `verified` never reverting. */
  predicate Stable(before: ContractRecord, after: ContractRecord) {
    && after.address == before.address
    && after.deployer == before.deployer
    && after.timestamp == before.timestamp
    && after.details == before.details
    && after.tokensniffer == before.tokensniffer
    && after.chain == before.chain
    && (before.verified ==> after.verified)
  }

  predicate StableAll(before: seq<ContractRecord>, after: seq<ContractRecord>) {
    |after| == |before| && forall j :: 0 <= j < |before| ==> Stable(before[j], after[j])
  }

  function MarkVerified(r: ContractRecord, src: Value): ContractRecord {
    r.(verified := true, sourceCode := Some(src))
  }

  /** Position of the first record with the given address: the document
      a filter on the address finds. */
  function FirstWith(store: seq<ContractRecord>, address: string): (r: Option<nat>)
    ensures r.Some? ==> r.value < |store| && store[r.value].address == address
    ensures r.Some? ==> forall j :: 0 <= j < r.value ==> store[j].address != address
    ensures r.None? ==> forall j :: 0 <= j < |store| ==> store[j].address != address
  {
    FindFirst(store, (c: ContractRecord) => c.address == address)
  }

  /** `update_one({"address": a}, {"$set": {"verified": True, "source_code": src}})`:
      the first record with the address becomes verified with the new
      source and every other record is left as it was; with no such record
      nothing changes. */
  function UpdateOne(store: seq<ContractRecord>, address: string, src: Value): (r: seq<ContractRecord>)
    ensures StableAll(store, r)
    ensures FirstWith(store, address).None? ==> r == store
    ensures FirstWith(store, address).Some? ==>
      var k := FirstWith(store, address).value;
      && r[k].verified && r[k].sourceCode == Some(src)
      && forall j :: 0 <= j < |store| && j != k ==> r[j] == store[j]
  {
    match FirstWith(store, address)
    case None => store
    case Some(i) => store[i := MarkVerified(store[i], src)]
  }

  /** Write the fetched source to the chosen document: under `SameRecord`
      record `i` becomes verified with the source and nothing else changes;
      under `FirstWithAddress` records with another address never change. */
  function Apply(target: Target, store: seq<ContractRecord>, i: nat, address: string, src: Value): (r: seq<ContractRecord>)
    requires i < |store|
    ensures StableAll(store, r)
    ensures target == SameRecord ==>
      && r[i].verified && r[i].sourceCode == Some(src)
      && forall j :: 0 <= j < |store| && j != i ==> r[j] == store[j]
    ensures target == FirstWithAddress ==>
      forall j :: 0 <= j < |store| && store[j].address != address ==> r[j] == store[j]
  {
    match target
    case FirstWithAddress => UpdateOne(store, address, src)
    case SameRecord => store[i := MarkVerified(store[i], src)]
  }

  /** What the outside world answers during a pass, by record position:
      the explorer's answer, whether `update_one` went through and whether
      the message was sent. */
  datatype Answers = Answers(fetch: nat -> Option<Value>, written: nat -> bool, delivered: nat -> bool)

  /** The loop over the records of `snapshot` (the store as the query saw
      it) from position `i` on. A write that raises ends the pass before
      the message; a message that cannot be sent ends it after the write. */
  function SweepFrom(target: Target, snapshot: seq<ContractRecord>, store: seq<ContractRecord>, i: nat,
                     w: Answers): (p: Pass)
    requires |store| == |snapshot|
    ensures StableAll(store, p.store)
    decreases |snapshot| - i
  {
    if i >= |snapshot| then Pass(store, [], false)
    else if snapshot[i].verified then SweepFrom(target, snapshot, store, i + 1, w)
    else
      match FetchSourceCode(w.fetch(i))
      case Failure(_) => Pass(store, [], true)
      case Success(src) =>
        if !Verifies(src) then SweepFrom(target, snapshot, store, i + 1, w)
        else
          if !w.written(i) then Pass(store, [], true)
          else
            var store' := Apply(target, store, i, snapshot[i].address, src);
            if !w.delivered(i) then Pass(store', [], true)
            else
              var rest := SweepFrom(target, snapshot, store', i + 1, w);
              Pass(rest.store, [Verified(snapshot[i].address, snapshot[i].chain)] + rest.notices, rest.crashed)
  }

  /** One pass over the whole store. */
  function SweepPass(target: Target, store: seq<ContractRecord>, w: Answers): (p: Pass)
    ensures |p.store| == |store|
    ensures forall j :: 0 <= j < |store| && store[j].verified ==> p.store[j].verified
  {
    SweepFrom(target, store, store, 0, w)
  }

  /** What a completed pass does to record `j` when each record is updated
      in place: verified records are left alone; an unverified one becomes
      verified, with its source, exactly when the explorer now has it. */
  function Expected(r: ContractRecord, answer: Option<Value>): ContractRecord {
    if NowVerified(r, answer) then MarkVerified(r, FetchSourceCode(answer).value) else r
  }

  /** The record was unverified and the explorer now returns truthy source. */
  predicate NowVerified(r: ContractRecord, answer: Option<Value>) {
    !r.verified && FetchSourceCode(answer).Success? && Verifies(FetchSourceCode(answer).value)
  }

  /** One "has been verified" message per record from `i` on that the
      explorer now verifies, in store order. */
  function NoticesFrom(snapshot: seq<ContractRecord>, w: Answers, i: nat): seq<Verified>
    decreases |snapshot| - i
  {
    if i >= |snapshot| then []
    else
      (if NowVerified(snapshot[i], w.fetch(i)) then [Verified(snapshot[i].address, snapshot[i].chain)] else [])
      + NoticesFrom(snapshot, w, i + 1)
  }

  /** Whichever record the write lands on, a pass from `i` that completes
      sends exactly the messages `NoticesFrom` lists. */
  lemma {:induction false} NoticesOfPass(target: Target, snapshot: seq<ContractRecord>, store: seq<ContractRecord>,
                                         i: nat, w: Answers)
    requires |store| == |snapshot|
    ensures var p := SweepFrom(target, snapshot, store, i, w);
      !p.crashed ==> p.notices == NoticesFrom(snapshot, w, i)
    decreases |snapshot| - i
  {
    if i < |snapshot| {
      if snapshot[i].verified {
        NoticesOfPass(target, snapshot, store, i + 1, w);
      } else if FetchSourceCode(w.fetch(i)).Success? {
        var src := FetchSourceCode(w.fetch(i)).value;
        if !Verifies(src) {
          NoticesOfPass(target, snapshot, store, i + 1, w);
        } else if w.written(i) && w.delivered(i) {
          NoticesOfPass(target, snapshot, Apply(target, store, i, snapshot[i].address, src), i + 1, w);
        }
      }
    }
  }

  /** A completed pass, as written or updating in place, sends one
      "has been verified" message for each record the explorer now
      verifies, in store order, and no other. */
  lemma PassNotices(target: Target, store: seq<ContractRecord>, w: Answers)
    ensures var p := SweepPass(target, store, w);
      !p.crashed ==> p.notices == NoticesFrom(store, w, 0)
  {
    NoticesOfPass(target, store, store, 0, w);
  }

  /** Records before `i` and records verified at the start are untouched. */
  lemma {:induction false} SameRecordKeeps(snapshot: seq<ContractRecord>, store: seq<ContractRecord>, i: nat,
                                           w: Answers)
    requires |store| == |snapshot| && i <= |snapshot|
    requires forall j :: i <= j < |snapshot| ==> store[j] == snapshot[j]
    ensures var p := SweepFrom(SameRecord, snapshot, store, i, w);
      forall j :: 0 <= j < |snapshot| && (j < i || snapshot[j].verified) ==> p.store[j] == store[j]
    decreases |snapshot| - i
  {
    if i < |snapshot| && !snapshot[i].verified && FetchSourceCode(w.fetch(i)).Success? {
      var src := FetchSourceCode(w.fetch(i)).value;
      if Verifies(src) && w.written(i) && w.delivered(i) {
        var store' := store[i := MarkVerified(store[i], src)];
        SameRecordKeeps(snapshot, store', i + 1, w);
      } else if !Verifies(src) {
        SameRecordKeeps(snapshot, store, i + 1, w);
      }
    } else if i < |snapshot| && snapshot[i].verified {
      SameRecordKeeps(snapshot, store, i + 1, w);
    }
  }

  /** A pass from `i` that completes leaves every later record as `Expected`. */
  lemma {:induction false} SameRecordCompletes(snapshot: seq<ContractRecord>, store: seq<ContractRecord>, i: nat,
                                               w: Answers)
    requires |store| == |snapshot| && i <= |snapshot|
    requires forall j :: i <= j < |snapshot| ==> store[j] == snapshot[j]
    requires !SweepFrom(SameRecord, snapshot, store, i, w).crashed
    ensures var p := SweepFrom(SameRecord, snapshot, store, i, w);
      forall j :: i <= j < |snapshot| ==> p.store[j] == Expected(snapshot[j], w.fetch(j))
    decreases |snapshot| - i
  {
    if i < |snapshot| {
      var p := SweepFrom(SameRecord, snapshot, store, i, w);
      var answer := FetchSourceCode(w.fetch(i));
      var next := store;
      if !snapshot[i].verified && answer.Success? && Verifies(answer.value) {
        next := store[i := MarkVerified(store[i], answer.value)];
      }
      assert p.store == SweepFrom(SameRecord, snapshot, next, i + 1, w).store;
      SameRecordCompletes(snapshot, next, i + 1, w);
      SameRecordKeeps(snapshot, next, i + 1, w);
      assert next[i] == Expected(snapshot[i], w.fetch(i));
    }
  }

  /** Updating the record in hand: records that were verified stay exactly
      as they were, and a pass that completes verifies precisely the
      records whose source the explorer now returns. */
  lemma SameRecordPass(store: seq<ContractRecord>, w: Answers)
    ensures var p := SweepPass(SameRecord, store, w);
      && (forall j :: 0 <= j < |store| && store[j].verified ==> p.store[j] == store[j])
      && (!p.crashed ==> forall j :: 0 <= j < |store| ==> p.store[j] == Expected(store[j], w.fetch(j)))
  {
    SameRecordKeeps(store, store, 0, w);
    if !SweepPass(SameRecord, store, w).crashed {
      SameRecordCompletes(store, store, 0, w);
    }
  }

  /** No two records share an address. */
  predicate UniqueAddresses(store: seq<ContractRecord>) {
    forall j, k :: 0 <= j < k < |store| ==> store[j].address != store[k].address
  }

  lemma {:induction false} AgreeFrom(snapshot: seq<ContractRecord>, store: seq<ContractRecord>, i: nat,
                                     w: Answers)
    requires |store| == |snapshot| && UniqueAddresses(snapshot)
    requires forall j :: 0 <= j < |snapshot| ==> store[j].address == snapshot[j].address
    ensures SweepFrom(FirstWithAddress, snapshot, store, i, w)
         == SweepFrom(SameRecord, snapshot, store, i, w)
    decreases |snapshot| - i
  {
    if i < |snapshot| {
      if snapshot[i].verified {
        AgreeFrom(snapshot, store, i + 1, w);
      } else if FetchSourceCode(w.fetch(i)).Success? {
        var src := FetchSourceCode(w.fetch(i)).value;
        if !Verifies(src) {
          AgreeFrom(snapshot, store, i + 1, w);
        } else if w.written(i) {
          assert FirstWith(store, snapshot[i].address) == Some(i);
          var store' := store[i := MarkVerified(store[i], src)];
          assert Apply(FirstWithAddress, store, i, snapshot[i].address, src) == store';
          assert Apply(SameRecord, store, i, snapshot[i].address, src) == store';
          AgreeFrom(snapshot, store', i + 1, w);
        }
      }
    }
  }

  /** While addresses are unique, filtering the update on the address does
      what was meant: it is the record in hand that gets updated. */
  lemma UniqueAddressesAgree(store: seq<ContractRecord>, w: Answers)
    requires UniqueAddresses(store)
    ensures SweepPass(FirstWithAddress, store, w) == SweepPass(SameRecord, store, w)
  {
    AgreeFrom(store, store, 0, w);
  }
}

=== FILE: sweep_example.dfy ===
/** A concrete pass over a store holding two records for one address,
    which shows where `update_one`'s filter on the address sends the write. */
module SweepExample {
  import opened Wrappers
  import opened Json
  import opened Contracts
  import opened Sweep

  const Addr := "0xa"
  const OldSource := JStr("old")
  const NewSource := JStr("new")
  const Listed := JObj(map["status" := JStr("1"), "result" := JList([JObj(map["SourceCode" := NewSource])])])

  /** Two records for one address (which `analyze_contract` can create): the
      first verified, the second not. */
  const Duplicated := [
    ContractRecord(Addr, "0xd", 1, true, None, None, Eth, Some(OldSource)),
    ContractRecord(Addr, "0xd", 1, false, None, None, Eth, None)]

  function AnswerFor(j: nat): Option<Value> {
    if j == 1 then Some(Listed) else None
  }

  function Always(j: nat): bool {
    true
  }

  /** The explorer lists source for the second record only; every write
      and every message goes through. */
  const Scenario := Answers(AnswerFor, Always, Always)

  /** As written, the pass overwrites the source of the verified record and
      leaves the unverified one unverified; updating the record in hand
      verifies it and leaves the other alone. */
  lemma DuplicateAddressMisroutesUpdate()
    ensures var p := SweepPass(FirstWithAddress, Duplicated, Scenario);
      && !p.crashed
      && p.store[0].sourceCode == Some(NewSource)
      && !p.store[1].verified
    ensures var p := SweepPass(SameRecord, Duplicated, Scenario);
      && !p.crashed
      && p.store[0] == Duplicated[0]
      && p.store[1].verified && p.store[1].sourceCode == Some(NewSource)
  {
    assert FetchSourceCode(AnswerFor(1)) == Success(NewSource);
    assert FirstWith(Duplicated, Addr) == Some(0);
    var misrouted := Duplicated[0 := MarkVerified(Duplicated[0], NewSource)];
    assert UpdateOne(Duplicated, Addr, NewSource) == misrouted;
    assert SweepFrom(FirstWithAddress, Duplicated, misrouted, 2, Scenario) == Pass(misrouted, [], false);
    assert SweepFrom(FirstWithAddress, Duplicated, Duplicated, 1, Scenario)
        == Pass(misrouted, [Verified(Addr, Eth)], false);
    var inPlace := Duplicated[1 := MarkVerified(Duplicated[1], NewSource)];
    assert SweepFrom(SameRecord, Duplicated, inPlace, 2, Scenario) == Pass(inPlace, [], false);
    assert SweepFrom(SameRecord, Duplicated, Duplicated, 1, Scenario)
        == Pass(inPlace, [Verified(Addr, Eth)], false);
  }
}

=== FILE: upstream.dfy ===
/** What the three detector adapters share: the chain identifiers they put
    in their URLs and the shape of an HTTP answer. */
module Upstream {
  import opened Wrappers
  import Json

  /** An HTTP answer: its status code and its body decoded as JSON, or
      `None` when the body is not JSON (decoding raises). */
  datatype Response = Response(status: int, body: Option<Json.Value>)

  /** The chain name in a hackers.tools page address. */
  function ChainSlug(chain: string): (slug: string)
    ensures slug == "ethereum" <==> chain == "eth"
    ensures slug == "ethereum" || slug == "base"
  {
    if chain == "eth" then "ethereum" else "base"
  }

  /** The numeric chain id sent to honeypot.is and TokenSniffer. */
  function ChainId(chain: string): (id: int)
    ensures id == 1 <==> chain == "eth"
    ensures id == 1 || id == 8453
  {
    if chain == "eth" then 1 else 8453
  }

  /** The scraper and the two JSON services always address the same chain. */
  lemma ChainNamesAgree(chain: string)
    ensures ChainSlug(chain) == "ethereum" <==> ChainId(chain) == 1
    ensures ChainSlug(chain) == "base" <==> ChainId(chain) == 8453
  {
  }
}

=== FILE: watcher.dfy ===
/** The block watcher of main.py: `monitor_blocks` walks a block cursor
    forward and hands every contract-creation transaction to an analysis
    task, and `start_monitoring` switches a chain's watcher on at most
    once. RPC answers are inputs; the one-second pause has no effect. */
module Watcher {
  import opened Wrappers
  import opened Contracts

  /** A transaction of a fetched block; `to` is absent for a contract creation. */
  datatype Tx = Tx(to: Option<string>, sender: string, hash: string)

  /** The watcher starts this many blocks behind the head. */
  const Lookback := 500

  function StartCursor(head: int): (cursor: int)
    ensures cursor + Lookback == head
  {
    head - Lookback
  }

  /** Number of contract-creation transactions. */
  function Creations(txs: seq<Tx>): (n: nat)
    ensures n <= |txs|
  {
    if txs == [] then 0 else (if txs[0].to.None? then 1 else 0) + Creations(txs[1..])
  }

  /** The analysis tasks spawned for one block, in transaction order: one
      per contract creation, and nothing else. */
  function Deployments(txs: seq<Tx>, chain: Chain): (r: seq<Deployment>)
    ensures |r| == Creations(txs)
  {
    if txs == [] then []
    else
      var rest := Deployments(txs[1..], chain);
      if txs[0].to.None? then [Deployment(txs[0].sender, txs[0].hash, chain)] + rest else rest
  }

  /** Every contract creation gets an analysis, and every analysis comes
      from a contract creation. */
  lemma {:induction false} DeploymentsMembers(txs: seq<Tx>, chain: Chain)
    ensures var r := Deployments(txs, chain);
      && (forall tx :: tx in txs && tx.to.None? ==> Deployment(tx.sender, tx.hash, chain) in r)
      && (forall d :: d in r ==> exists tx :: tx in txs && tx.to.None? && d == Deployment(tx.sender, tx.hash, chain))
  {
    if txs != [] {
      DeploymentsMembers(txs[1..], chain);
      assert forall tx :: tx in txs[1..] ==> tx in txs;
      assert forall tx :: tx in txs ==> tx == txs[0] || tx in txs[1..];
    }
  }

  /** Splitting the transactions splits the deployments: they come out in
      transaction order. */
  lemma {:induction false} DeploymentsAppend(a: seq<Tx>, b: seq<Tx>, chain: Chain)
    ensures Deployments(a + b, chain) == Deployments(a, chain) + Deployments(b, chain)
    decreases |a|
  {
    if a == [] {
      assert a + b == b;
    } else {
      assert (a + b)[0] == a[0] && (a + b)[1..] == a[1..] + b;
      DeploymentsAppend(a[1..], b, chain);
    }
  }

  /** One loop iteration: the block at the cursor, or `None` when fetching it
      raised. */
  function Scan(cursor: int, block: Option<seq<Tx>>, chain: Chain): (r: (int, seq<Deployment>))
    ensures block.None? ==> r == (cursor, [])
    ensures block.Some? ==> r.0 == cursor + 1 && r.1 == Deployments(block.value, chain)
  {
    match block
    case None => (cursor, [])
    case Some(txs) => (cursor + 1, Deployments(txs, chain))
  }

  /** What the loop sees on each turn: whether `monitoring[chain]` is still
      set, and whether fetching the block at the cursor succeeds. */
  datatype Tick = Tick(active: bool, fetched: bool)

  datatype Watch = Watch(cursor: int, spawned: seq<Deployment>, rounds: nat)

  /** `monitor_blocks` over the chain `blocks` (block number to transactions). */
  function WatchLoop(cursor: int, chain: Chain, blocks: int -> seq<Tx>, ticks: seq<Tick>): (w: Watch)
    ensures w.rounds <= |ticks|
    ensures cursor <= w.cursor <= cursor + w.rounds
    decreases |ticks|
  {
    if ticks == [] || !ticks[0].active then Watch(cursor, [], 0)
    else
      var (next, spawned) := Scan(cursor, if ticks[0].fetched then Some(blocks(cursor)) else None, chain);
      var rest := WatchLoop(next, chain, blocks, ticks[1..]);
      Watch(rest.cursor, spawned + rest.spawned, rest.rounds + 1)
  }

  /** Number of turns before the flag is first seen cleared. */
  function ActiveRun(ticks: seq<Tick>): nat {
    if ticks == [] || !ticks[0].active then 0 else 1 + ActiveRun(ticks[1..])
  }

  function Fetches(ticks: seq<Tick>): nat {
    if ticks == [] then 0 else (if ticks[0].fetched then 1 else 0) + Fetches(ticks[1..])
  }

  /** The deployments of blocks `from .. to - 1`, block by block. */
  function DeploymentsBetween(blocks: int -> seq<Tx>, chain: Chain, from: int, to: int): seq<Deployment>
    decreases to - from
  {
    if from >= to then [] else Deployments(blocks(from), chain) + DeploymentsBetween(blocks, chain, from + 1, to)
  }

  /** The watcher runs exactly while the flag is set; the cursor moves by one
      per successful fetch and not on an error; and every block it passes
      is scanned exactly once, in order, so its deployments are spawned
      once each and none is skipped. */
  lemma {:induction false} EveryBlockOnce(cursor: int, chain: Chain, blocks: int -> seq<Tx>, ticks: seq<Tick>)
    ensures var w := WatchLoop(cursor, chain, blocks, ticks);
      && w.rounds == ActiveRun(ticks)
      && w.cursor == cursor + Fetches(ticks[..w.rounds])
      && w.spawned == DeploymentsBetween(blocks, chain, cursor, w.cursor)
    decreases |ticks|
  {
    var w := WatchLoop(cursor, chain, blocks, ticks);
    if ticks == [] || !ticks[0].active {
      assert ticks[..0] == [];
    } else {
      var next := if ticks[0].fetched then cursor + 1 else cursor;
      EveryBlockOnce(next, chain, blocks, ticks[1..]);
      var rest := WatchLoop(next, chain, blocks, ticks[1..]);
      assert ticks[..w.rounds][1..] == ticks[1..][..rest.rounds];
      if !ticks[0].fetched {
        assert w.spawned == rest.spawned;
      } else {
        assert w.spawned == Deployments(blocks(cursor), chain) + rest.spawned;
      }
    }
  }

  /** `monitor_blocks` from the head the chain reports when it starts: the
      first block scanned is `head - 500`, and the deployments spawned are
      those of the blocks from there up to the final cursor, in order.
      `head` is `None` when looking it up raised; that lookup comes before
      the `try`, so the task then dies at once (`None`) having scanned
      nothing, while `monitoring[chain]` stays set. */
  function MonitorBlocks(head: Option<int>, chain: Chain, blocks: int -> seq<Tx>, ticks: seq<Tick>): (w: Option<Watch>)
    ensures w.None? <==> head.None?
    ensures w.Some? ==> w.value.rounds == ActiveRun(ticks)
    ensures w.Some? ==> head.value - Lookback <= w.value.cursor <= head.value - Lookback + w.value.rounds
    ensures w.Some? ==> w.value.spawned == DeploymentsBetween(blocks, chain, head.value - Lookback, w.value.cursor)
  {
    match head
    case None => None
    case Some(h) =>
      EveryBlockOnce(StartCursor(h), chain, blocks, ticks);
      Some(WatchLoop(StartCursor(h), chain, blocks, ticks))
  }

  // ---------------------------------------------------------------------
  // start_monitoring

  /** The `monitoring` flags and the watcher tasks started, per chain. A
      started task may since have died (its head lookup raised); nothing
      clears the flag, so such a chain is never given another watcher. */
  datatype Monitor = Monitor(active: set<Chain>, watchers: multiset<Chain>)

  const Initial := Monitor({}, multiset{})

  /** A chain has had one watcher started when it is active and none
      otherwise. */
  ghost predicate OneWatcherPerActiveChain(m: Monitor) {
    forall c: Chain :: m.watchers[c] == if c in m.active then 1 else 0
  }

  datatype Toggle = Toggle(monitor: Monitor, started: bool)

  /** `start_monitoring(chain)`: set the flag and start a watcher, unless the
      flag is already set. */
  function StartMonitoring(m: Monitor, c: Chain): (t: Toggle)
    ensures c in t.monitor.active
    ensures t.started <==> c !in m.active
    ensures forall c' :: c' != c ==> (c' in t.monitor.active <==> c' in m.active)
    ensures forall c' :: c' != c ==> t.monitor.watchers[c'] == m.watchers[c']
  {
    if c !in m.active then Toggle(Monitor(m.active + {c}, m.watchers + multiset{c}), true)
    else Toggle(m, false)
  }

  /** No chain is monitored at start-up. */
  lemma InitialIsValid()
    ensures OneWatcherPerActiveChain(Initial)
  {
  }

  /** Starting keeps exactly one started watcher per active chain. */
  lemma StartKeepsOneWatcher(m: Monitor, c: Chain)
    requires OneWatcherPerActiveChain(m)
    ensures OneWatcherPerActiveChain(StartMonitoring(m, c).monitor)
  {
  }

  /** Starting twice is starting once: the second call changes nothing and
      starts no watcher. */
  lemma StartIdempotent(m: Monitor, c: Chain)
    ensures var once := StartMonitoring(m, c).monitor;
      StartMonitoring(once, c) == Toggle(once, false)
  {
  }
}

=== FILE: wrappers.dfy ===
/** Failure-compatible Option and Result, used for the "no data" answers of
    the detectors and for Python exceptions that escape a function. */
module Wrappers {

  datatype Option<+T> = None | Some(value: T) {

    predicate IsFailure() {
      None?
    }

    function PropagateFailure<U>(): Option<U>
      requires None?
    {
      None
    }

    function Extract(): T
      requires Some?
    {
      value
    }
  }

  datatype Result<+T, +E> = Success(value: T) | Failure(error: E) {

    predicate IsFailure() {
      Failure?
    }

    function PropagateFailure<U>(): Result<U, E>
      requires Failure?
    {
      Failure(error)
    }

    function Extract(): T
      requires Success?
    {
      value
    }
  }
}
